=== FILE: README.md ===
# OpenAPI contract index and validator, in Dafny

This project models the core of a contract-testing harness for a calendar
service. The harness fetches the service's OpenAPI document and then answers
structural questions about it: which paths and methods exist, an operation's
id, its declared status codes, and its request and response schemas. It checks
captured request and response bodies against those schemas, and the Jest tests
turn each verdict into a pass or a thrown diagnostic.

The model has three parts.

- **Contract index and validator** (`SchemaValidator`, `SchemaEngine`, with
  lemmas in `ValidatorLemmas`). The OpenAPI document is a `Json` value whose
  objects are ordered member sequences. The queries are total functions, and
  JavaScript truthiness, `typeof` and property reads are written out in the
  `Json` module. The JSON-Schema engine (Ajv) is an oracle held by the
  validator. It has two parts:
  - `accepts` decides whether `addSchema` takes a component schema.
  - `run` compiles a schema and runs it on a payload. It may report a
    compile error. A passing run carries no error list.

  Verdicts are a datatype. A thrown error is the `Failure` side of a `Result`.
- **Spec acquisition** (`OpenApiFetcher`). `fetchOpenAPISpec` is a pure
  function over the outcomes of its two HTTP requests. It returns:
  - the fetcher state afterwards;
  - the URLs it requested, in order;
  - the accepted document, or the classified error.
- **Assertion helpers** (`TestSetup`). These are the global helpers and the
  `toMatchOpenAPISchema` matcher of the Jest setup file. A `Harness` value
  stands for the global state.

`JsText` holds the JavaScript string operations the core relies on:
`toLowerCase`/`toUpperCase`, integer `toString`, `parseInt(s, 10)` and `join`.
`Scenarios` states the answers the queries give on a small document shaped
like the service's, namely the answers the API tests expect.

The code behaves as follows, and the model follows it:

- A refused **health probe** does not surface as "cannot connect". The probe
  replaces the client error with a plain `Error` that has no `code`, and the
  outer catch wraps that generically ("Failed to fetch OpenAPI schema from …
  Error: Cannot connect …"). Only a refused **spec** request, after a passing
  probe, gives the bare "Cannot connect" message.
- A document without `paths` (or with `paths: null`) does not degrade to "no
  contract". Every query that indexes `paths[path]` throws a `TypeError`;
  only `getAllPaths` answers with no paths.
- Method lookup lower-cases the caller's method only. An
  upper-case method key in the document is never found.
- A method is listed for a path when its entry is *truthy*, not merely present.
- Status codes come from `parseInt`, so a key like `"2XX"` counts as 2.
- `ajv.compile` can throw in `validateRequest` as well as in
  `validateResponse`. Only the undocumented-operation error is exclusive to
  `validateResponse`.
- A declared schema that is falsy, such as the boolean schema `false`, is
  treated as "no schema" and yields `valid: true`.

## Model

| member | source | states |
|---|---|---|
| `Json.Lookup` | src/utils/schema-validator.js:59-64 | a property read finds a member exactly when one has that key, and yields the first such member's value |
| `Json.Read` | src/utils/schema-validator.js:59 | `x[key]` throws a TypeError exactly when `x` is undefined or null, naming the key; otherwise it is the plain read |
| `Json.KeysAreReadable` | src/utils/schema-validator.js:111-113 | a key is listed by `Object.keys` exactly when reading it yields a value |
| `JsText.LowerIdempotent` | src/utils/schema-validator.js:64 | lower-casing is idempotent and an upper-cased method lower-cases to the same token |
| `JsText.NatToString` | src/utils/schema-validator.js:74 | a status code's decimal text is non-empty, all digits, with no leading zero |
| `JsText.ParseIntInvertsIntToString` | src/utils/schema-validator.js:102 | `parseInt(String(n), 10)` is `n` for every integer the model's `String` covers (see "## Left out"): the key a code is looked up under parses back to that code |
| `JsText.ParseIntRangeKey` | src/utils/schema-validator.js:102 | `parseInt("2XX", 10)` is 2, since only the leading digits are read |
| `JsText.ParseIntDefaultKey` | src/utils/schema-validator.js:100-103 | `parseInt("default", 10)` is NaN |
| `JsText.SplitInvertsJoin` | tests/setup.js:58-60 | joining lines with a newline and splitting again returns the same lines, in order, when no line holds a newline |
| `SchemaEngine.SchemaKeyInjective` | src/utils/schema-validator.js:24 | distinct component names get distinct reference keys |
| `SchemaEngine.RegisterEach` | src/utils/schema-validator.js:22-28 | registration only appends; each registration is some entry under its `#/components/schemas/<name>` key; keys stay distinct; a refused entry does not stop the rest: every entry with a fresh key and a unique name that the engine accepts under every registry is registered, whatever happens to the other entries |
| `SchemaEngine.RegisterEachAppend` | src/utils/schema-validator.js:22-28 | registering one more entry runs `addSchema` on the registry the earlier entries left: the entry is added exactly when its key is free and the engine accepts it under that registry, and the earlier registrations are kept either way |
| `SchemaEngine.RegisterEachKeepsOnlyAccepted` | src/utils/schema-validator.js:22-28 | a refused entry is skipped: every registration the fold appends was accepted by the engine under the registry as it stood when it was added |
| `SchemaEngine.KeepsAcceptedStep` | src/utils/schema-validator.js:22-28 | one `addSchema` step keeps the promise for entries the engine accepts under every registry: such a first entry is appended, and a refusal of the first entry does not stop later such entries from being registered |
| `SchemaEngine.RegisterEachAcceptingAll` | src/utils/schema-validator.js:20-30 | with an engine that accepts everything and distinct names, every component schema is registered under its key, in document order |
| `SchemaValidator.RegisterSchemas` | src/utils/schema-validator.js:20-30 | the registry built at construction has distinct keys, each a component schema under its reference key; every uniquely named component schema the engine accepts under every registry is registered, even when others are refused; nothing the engine refused is registered |
| `SchemaValidator.NewValidator` | src/utils/schema-validator.js:5-18 | construction throws exactly for a null document; otherwise it keeps the document and its registered schemas |
| `SchemaValidator.GetOperation` | src/utils/schema-validator.js:57-65 | throws exactly when `paths` is unreadable; null for a falsy path item; otherwise the path item's entry at the lower-cased method |
| `SchemaValidator.GetAllPaths` | src/utils/schema-validator.js:111-113 | the listed paths are exactly the readable keys of a truthy `paths`, in document order |
| `SchemaValidator.PresentMethods` | src/utils/schema-validator.js:121-122 | keeps exactly the methods whose entry is truthy, in vocabulary order |
| `SchemaValidator.GetMethodsForPath` | src/utils/schema-validator.js:115-123 | throws exactly when `paths` is unreadable; otherwise an ordered subsequence of `get, post, put, patch, delete, head, options` holding exactly the truthy entries of the path item |
| `SchemaValidator.GetOperationId` | src/utils/schema-validator.js:106-109 | the `paths` TypeError when `paths` is unreadable; null for an undocumented operation, otherwise the operation's `operationId` |
| `SchemaValidator.StatusCodes` | src/utils/schema-validator.js:100-103 | a code is listed exactly when some key other than `default` parses to it |
| `SchemaValidator.GetExpectedStatusCodes` | src/utils/schema-validator.js:94-104 | empty for an undocumented operation or falsy `responses`; otherwise contains exactly the parses of the non-`default` response keys |
| `SchemaValidator.GetResponseSchema` | src/utils/schema-validator.js:67-92 | exact status key first, even without JSON content; `default` only when the exact entry is falsy; otherwise no schema |
| `SchemaValidator.GetRequestSchema` | src/utils/schema-validator.js:125-137 | no schema for an undocumented operation or a falsy `requestBody`; otherwise the body's `application/json` schema |
| `SchemaValidator.RunSchema` | src/utils/schema-validator.js:47-54 | a compile error throws the engine's own error unchanged; otherwise the verdict carries the schema, is valid exactly when the engine passes, and a failed verdict carries exactly the engine's error list, or `[]` when the engine gives none |
| `SchemaValidator.ValidateResponse` | src/utils/schema-validator.js:32-55 | raises "Operation not found" exactly for an undocumented operation; "No schema defined for <code> response" exactly when no schema resolves; otherwise the engine's verdict on the resolved schema, whose errors are the engine's list (`validate.errors || []`); a valid verdict has no errors; an unreadable `paths` throws its own TypeError naming the path, and a compile error throws the engine's error for the resolved schema |
| `SchemaValidator.ValidateRequest` | src/utils/schema-validator.js:139-156 | never raises "Operation not found"; "No request schema defined" exactly when no request schema resolves; otherwise the engine's verdict, whose errors are the engine's list (`validate.errors || []`); an unreadable `paths` throws its own TypeError naming the path, and a compile error throws the engine's error for the resolved request schema |
| `ValidatorLemmas.MethodCaseInsensitive` | src/utils/schema-validator.js:64 | `GET`, `get` and any other casing find the same operation |
| `ValidatorLemmas.MethodsAgreeWithOperations` | src/utils/schema-validator.js:115-123 | a vocabulary method is listed for a path exactly when its operation is documented |
| `ValidatorLemmas.DocumentedPathIsListed` | src/utils/schema-validator.js:57-65 | a documented operation's path is among `getAllPaths`, because path matching is exact |
| `ValidatorLemmas.UnlistedPathIsUndocumented` | src/utils/schema-validator.js:59-62 | an unlisted path has no operation, methods, status codes, operation id or request schema |
| `ValidatorLemmas.ExactResponseIsExpectedStatus` | src/utils/schema-validator.js:94-104 | a code whose exact response entry exists is among the expected status codes |
| `ValidatorLemmas.ExactSchemaShadowsDefault` | src/utils/schema-validator.js:73-79 | when the exact entry declares a JSON schema, the verdict uses that schema whatever `default` declares |
| `ValidatorLemmas.ExactEntryWithoutJsonContentIsNotChecked` | src/utils/schema-validator.js:77-89 | an exact entry without JSON content does not fall back to `default`; the verdict is "No schema defined" |
| `ValidatorLemmas.UndeclaredStatusIsNotChecked` | src/utils/schema-validator.js:38-45 | with neither the exact key nor `default`, any body yields valid "No schema defined for <code> response" |
| `ValidatorLemmas.OnlyResponseValidationRaisesOnUndocumented` | src/utils/schema-validator.js:32-36 | for an undocumented operation, response validation raises while request validation, status codes and operation id degrade to empty answers |
| `ValidatorLemmas.MissingPathsThrows` | src/utils/schema-validator.js:59 | without readable `paths`, `getOperation`, `getMethodsForPath`, `getExpectedStatusCodes`, `getRequestSchema` and `getOperationId` all throw the same TypeError, and `getAllPaths` is empty |
| `OpenApiFetcher.Classify` | src/utils/openapi-fetcher.js:36-54 | connection refused gives "cannot connect"; otherwise an error with a response gives its status; otherwise the message is wrapped |
| `OpenApiFetcher.AcquisitionError.Message` | src/utils/openapi-fetcher.js:37-54 | "cannot connect" opens with the server URL; the other two messages open with "Failed to fetch OpenAPI schema from <url><endpoint>. ", the status message ends with the status and its text, and the wrapped message ends with "Error: " and the inner message |
| `OpenApiFetcher.FailureMessageNamesCause` | src/utils/openapi-fetcher.js:10-56 | a failed probe or a malformed body reaches the caller as "Failed to fetch …", never as the bare "Cannot connect"; a refused spec request gives "Cannot connect … <url>"; any other thrown error without a response keeps its own message at the end |
| `OpenApiFetcher.CheckServerHealth` | src/utils/openapi-fetcher.js:58-78 | the probe passes exactly on status 200; other statuses and refused connections become plain errors; other errors propagate unchanged |
| `OpenApiFetcher.FetchOpenAPISpec` | src/utils/openapi-fetcher.js:10-56 | the probe is requested first, and a failed probe means the spec is never requested; success exactly for a passing probe and an object body with truthy `openapi` or `swagger`; the stored document equals the returned one; failure leaves the state unchanged; an error thrown by the probe or by the spec request reaches the caller as the catch block classifies it, so a generic error keeps its message |
| `OpenApiFetcher.GetOpenAPISpec` | src/utils/openapi-fetcher.js:80-85 | throws until a truthy document is held, then returns it |
| `OpenApiFetcher.HealthRefusedIsWrapped` | src/utils/openapi-fetcher.js:69-76 | a refused probe reaches the caller through the generic wrapper, and the spec is never requested |
| `OpenApiFetcher.HealthStatusIsWrapped` | src/utils/openapi-fetcher.js:64-66 | a non-200 probe fails with "Health check failed with status <s>" inside the generic wrapper |
| `OpenApiFetcher.ResponseErrorsReportStatus` | src/utils/openapi-fetcher.js:44-49 | an error carrying a response, from either request and not a refused connection, reports that response's status |
| `OpenApiFetcher.CannotConnectOnlyFromSpecRequest` | src/utils/openapi-fetcher.js:37-42 | "cannot connect" is reported exactly for a refused spec request after a passing probe |
| `OpenApiFetcher.MalformedBodyIsWrapped` | src/utils/openapi-fetcher.js:23-30 | a non-object body, or one without truthy `openapi`/`swagger`, is rejected with its shape message inside the generic wrapper |
| `OpenApiFetcher.FetchKeepsAcceptedSpec` | src/utils/openapi-fetcher.js:32-35 | the held document always passed the shape checks; after a fetch `getOpenAPISpec` returns the new document, or what it returned before if the fetch failed |
| `OpenApiFetcher.SpecUnavailableBeforeFetch` | src/utils/openapi-fetcher.js:5-8 | a new fetcher has no document, so `getOpenAPISpec` throws |
| `TestSetup.ValidateResponse` | tests/setup.js:50-68 | throws "Schema validator not initialized" without a validator; passes the validator's throw on; returns a valid verdict unchanged; otherwise throws the header with the status code, then one `  - <path or root>: <message>` line per error |
| `TestSetup.ValidateRequest` | tests/setup.js:71-89 | as for responses, with a header that omits the status code |
| `TestSetup.GetExpectedStatusCodes` | tests/setup.js:92-98 | throws without a validator; otherwise returns the validator's status codes or passes its throw on |
| `TestSetup.GetOperationId` | tests/setup.js:101-107 | throws without a validator; otherwise returns the validator's operation id or passes its throw on |
| `TestSetup.ToMatchOpenAPISchema` | tests/setup.js:111-124 | passes exactly when the response helper does not throw; a failing match embeds the thrown text |
| `TestSetup.PassingResponseHelperIsValid` | tests/setup.js:57-67 | whatever the response helper returns is a valid verdict with no errors |
| `TestSetup.ResponseFailureLines` | tests/setup.js:57-65 | the failure message splits into the header and exactly one line per schema error, in order |
| `TestSetup.MatcherFailsOnUndocumented` | tests/setup.js:111-124 | an undocumented operation makes the matcher fail with "Operation not found for <METHOD> <path>" in its message |
| `TestSetup.HelpersRequireValidator` | tests/setup.js:51-53 | every helper throws "Schema validator not initialized" when no validator is set, and the matcher fails |
| `Scenarios.CreateEventOperationId` | tests/api/events.test.js:160-163 | the create-event operation id is found under `post` and under `POST` |
| `Scenarios.CreateEventStatusCodes` | tests/api/events.test.js:165-169 | the create-event operation's expected status codes contain 201 and 400 |
| `Scenarios.UndeclaredPathRaises` | src/utils/schema-validator.js:33-36 | validating a response on an undeclared path raises "Operation not found" |
| `Scenarios.UndeclaredStatusNotChecked` | src/utils/schema-validator.js:38-45 | a 404 body against an operation that declares only 200 gets "No schema defined for 404 response" |

## Left out

- Json.Get: a property read sees only the own members of plain objects. Array and string indices and inherited properties (`constructor`, `__proto__`, …) read as absent, and `Object.keys`/`Object.entries` of a non-object are empty.
- Json.Lookup: reads the first member with a key. `JSON.parse` keeps the last of duplicate keys, so documents with duplicate keys are outside the model.
- JsText.ToLowerCase: maps ASCII letters only, not full Unicode case mapping. `JsText.ToUpperCase` likewise.
- JsText.ParseInt: digit strings are read exactly. JavaScript loses precision beyond 2^53, and `parseInt("-0")` gives `-0`, which the model reads as 0.
- JsText.IntToString: decimal digits for every integer. JavaScript's `String(n)` switches to exponent notation from 10^21 (`"1e+21"`), and numbers beyond 2^53 are rounded, so `JsText.ParseIntInvertsIntToString` speaks for realistic status codes, not for such numbers.
- SchemaValidator.GetAllPaths: lists the keys in document order. `Object.keys` puts integer-like keys first, in ascending order, but OpenAPI path keys begin with "/" and are never integer-like, so the order differs only for documents that are not valid OpenAPI.
- SchemaValidator.GetExpectedStatusCodes: states membership only, not the order. `Object.keys` puts integer-like keys first, in ascending order, and the tests check membership only.
- SchemaValidator.StatusCodes: states membership only, for the same reason.
- SchemaEngine.KeepsAcceptedStep: carries only entries the engine accepts under every registry. An entry accepted under some registries and refused under others is covered one step at a time by `SchemaEngine.RegisterEachAppend`, which states the registry it is judged against.
- SchemaEngine.RegisterEach: its keeps-accepted ensures names only entries accepted under every registry, for the same reason. `SchemaEngine.RegisterEachAppend` gives the exact step for the others.
- SchemaValidator.RegisterSchemas: promises registration only for component schemas accepted under every registry. A schema that Ajv accepts or refuses depending on what is already registered (a key or `$id` in use) follows `SchemaEngine.RegisterEachAppend`.
- JSON numbers are real numbers. Status codes are integers, so a non-integer status code is not modelled.
- JSON-Schema semantics: compilation, formats, `$ref` resolution and the compiled-schema cache belong to the engine oracle. The model does not interpret schemas.
- Schema error objects keep only `instancePath` and `message`. `keyword`, `params` and `schemaPath` are not used by the core.
- HTTP transport: request and spec outcomes are arbitrary values. Axios behaviour is not imposed, including that it resolves only 2xx statuses by default, its timeouts and the `Accept` header. The `ApiClient` wrapper is not modelled.
- Console logging is not modelled. This includes the fetched-version line and the schema-registration warning.
- `getServerUrl` is a plain accessor. It is the `serverUrl` field of `Fetcher`.
- The Jest `beforeAll`/`afterAll` wiring and `process.exit` are runner plumbing. The `Harness` value stands for their result.
- The matcher's `message` thunks are modelled as the strings they return.
- Concurrency and the compile cache are not modelled: every query is a pure function, so repeating a call gives the same verdict.
- The browser end-to-end layer, test-data generation, the demo script and configuration loading are outside the core.

=== FILE: js_text.dfy ===
/** The JavaScript string operations the core relies on: `toLowerCase` /
    `toUpperCase` on method names, `Number.prototype.toString` on integer
    status codes, `parseInt(s, 10)` on response keys, and `Array.prototype.join`
    for diagnostics.  `Split` is the inverse used to state what `Join` keeps. */
module JsText {
  import opened Wrappers

  // ---- case mapping (ASCII letters) ----

  function LowerChar(c: char): char {
    if 'A' <= c <= 'Z' then (c as int + 32) as char else c
  }

  function UpperChar(c: char): char {
    if 'a' <= c <= 'z' then (c as int - 32) as char else c
  }

  function ToLowerCase(s: string): string {
    seq(|s|, i requires 0 <= i < |s| => LowerChar(s[i]))
  }

  function ToUpperCase(s: string): string {
    seq(|s|, i requires 0 <= i < |s| => UpperChar(s[i]))
  }

  /** Lower-casing twice is lower-casing once, and upper-case input lower-cases
      to the same token as its lower-case spelling. */
  lemma LowerIdempotent(s: string)
    ensures ToLowerCase(ToLowerCase(s)) == ToLowerCase(s)
    ensures ToLowerCase(ToUpperCase(s)) == ToLowerCase(s)
  {
  }

  // ---- Number.prototype.toString for integers ----

  predicate IsDigit(c: char) {
    '0' <= c <= '9'
  }

  function DigitChar(d: nat): (c: char)
    requires d < 10
    ensures IsDigit(c)
  {
    ('0' as int + d) as char
  }

  function DigitValue(c: char): (d: nat)
    requires IsDigit(c)
    ensures d < 10 && DigitChar(d) == c
  {
    c as int - '0' as int
  }

  /** Decimal digits of `n`, most significant first, without leading zeros. */
  function NatToString(n: nat): (r: string)
    ensures |r| > 0 && forall i :: 0 <= i < |r| ==> IsDigit(r[i])
    ensures n >= 10 ==> r[0] != '0'
    decreases n
  {
    if n < 10 then [DigitChar(n)] else NatToString(n / 10) + [DigitChar(n % 10)]
  }

  /** `String(n)` for an integer `n` that JavaScript prints in plain decimal
      (magnitude below 10^21 and exactly representable). */
  function IntToString(n: int): string {
    if n < 0 then "-" + NatToString(-n) else NatToString(n)
  }

  // ---- parseInt(s, 10) ----

  /** The white space and line terminators `parseInt` skips (ECMAScript StrWhiteSpaceChar). */
  predicate IsJsWhiteSpace(c: char) {
    || c == '\t' || c == '\n' || c == '\U{000B}' || c == '\U{000C}' || c == '\r' || c == ' '
    || c == '\U{00A0}' || c == '\U{1680}' || ('\U{2000}' <= c <= '\U{200A}')
    || c == '\U{2028}' || c == '\U{2029}' || c == '\U{202F}' || c == '\U{205F}'
    || c == '\U{3000}' || c == '\U{FEFF}'
  }

  function TrimStart(s: string): (r: string)
    ensures |r| <= |s| && r == s[|s| - |r|..]
    ensures |r| > 0 ==> !IsJsWhiteSpace(r[0])
  {
    if |s| > 0 && IsJsWhiteSpace(s[0]) then TrimStart(s[1..]) else s
  }

  /** The longest prefix of `s` made of decimal digits. */
  function LeadingDigits(s: string): (r: string)
    ensures |r| <= |s| && r == s[..|r|]
    ensures forall i :: 0 <= i < |r| ==> IsDigit(r[i])
    ensures |r| < |s| ==> !IsDigit(s[|r|])
  {
    if |s| > 0 && IsDigit(s[0]) then [s[0]] + LeadingDigits(s[1..]) else []
  }

  /** The value of a string of decimal digits. */
  function DigitsValue(ds: string): nat
    requires forall i :: 0 <= i < |ds| ==> IsDigit(ds[i])
  {
    if |ds| == 0 then 0 else DigitsValue(ds[..|ds| - 1]) * 10 + DigitValue(ds[|ds| - 1])
  }

  /** `parseInt(s, 10)`; `None` is `NaN`.  Leading white space is skipped, one
      sign is allowed, and the longest run of digits after it is read, so
      `"2XX"` is 2 while `"default"` is NaN. */
  function ParseInt(s: string): Option<int> {
    var t := TrimStart(s);
    var negative := |t| > 0 && t[0] == '-';
    var unsigned := if |t| > 0 && (t[0] == '-' || t[0] == '+') then t[1..] else t;
    var ds := LeadingDigits(unsigned);
    if |ds| == 0 then None
    else
      var magnitude: int := DigitsValue(ds);
      Some(if negative then -magnitude else magnitude)
  }

  lemma {:induction false} DigitsValueOfNatToString(n: nat)
    ensures DigitsValue(NatToString(n)) == n
    decreases n
  {
    var r := NatToString(n);
    if n >= 10 {
      DigitsValueOfNatToString(n / 10);
      assert r[..|r| - 1] == NatToString(n / 10);
    }
  }

  lemma {:induction false} LeadingDigitsOfDigits(ds: string)
    requires forall i :: 0 <= i < |ds| ==> IsDigit(ds[i])
    ensures LeadingDigits(ds) == ds
  {
    if |ds| > 0 {
      LeadingDigitsOfDigits(ds[1..]);
    }
  }

  /** `parseInt(String(n), 10) === n` for every integer `IntToString` prints in
      plain decimal: the status code a
      caller passes and the response key it is looked up under agree. */
  lemma ParseIntInvertsIntToString(n: int)
    ensures ParseInt(IntToString(n)) == Some(n)
  {
    var m: nat := if n < 0 then -n else n;
    var ds := NatToString(m);
    DigitsValueOfNatToString(m);
    LeadingDigitsOfDigits(ds);
    var s := IntToString(n);
    assert TrimStart(s) == s by {
      assert !IsJsWhiteSpace(s[0]);
    }
    if n < 0 {
      assert s[1..] == ds;
    }
  }

  /** `parseInt` reads only the leading digits of a key: `"2XX"` is 2. */
  lemma ParseIntRangeKey()
    ensures ParseInt("2XX") == Some(2)
  {
    assert TrimStart("2XX") == "2XX";
    assert LeadingDigits("XX") == "";
    assert LeadingDigits("2XX") == "2";
    assert DigitsValue("2") == 2;
  }

  /** `"default"` has no leading digit, so `parseInt` gives NaN. */
  lemma ParseIntDefaultKey()
    ensures ParseInt("default") == None
  {
    assert "default"[0] == 'd' && !IsJsWhiteSpace('d') && !IsDigit('d');
    assert TrimStart("default") == "default";
    assert LeadingDigits("default") == [];
  }

  // ---- join / split ----

  /** `xs.join(sep)`. */
  function Join(xs: seq<string>, sep: string): string {
    if |xs| == 0 then "" else if |xs| == 1 then xs[0] else xs[0] + sep + Join(xs[1..], sep)
  }

  /** `s.split(sep)` for a one-character separator. */
  function Split(s: string, sep: char): (r: seq<string>)
    ensures |r| > 0
    decreases |s|
  {
    if sep !in s then [s]
    else
      var i := IndexOf(s, sep);
      [s[..i]] + Split(s[i + 1..], sep)
  }

  function IndexOf(s: string, c: char): (i: nat)
    requires c in s
    ensures i < |s| && s[i] == c && c !in s[..i]
  {
    if s[0] == c then 0 else 1 + IndexOf(s[1..], c)
  }

  /** Joining lines that hold no separator and splitting again gives back the
      lines, in order: a joined message keeps one line per entry. */
  lemma {:induction false} SplitInvertsJoin(xs: seq<string>, sep: char)
    requires |xs| > 0
    requires forall k :: 0 <= k < |xs| ==> sep !in xs[k]
    ensures Split(Join(xs, [sep]), sep) == xs
  {
    if |xs| == 1 {
    } else {
      var s := Join(xs, [sep]);
      var rest := Join(xs[1..], [sep]);
      assert s == xs[0] + [sep] + rest;
      assert sep in s by {
        assert s[|xs[0]|] == sep;
      }
      IndexOfAfterPrefix(xs[0], sep, rest);
      var i := IndexOf(s, sep);
      assert i == |xs[0]|;
      assert s[..i] == xs[0];
      assert s[i + 1..] == rest;
      SplitInvertsJoin(xs[1..], sep);
    }
  }

  lemma {:induction false} IndexOfAfterPrefix(prefix: string, c: char, rest: string)
    requires c !in prefix
    ensures c in prefix + [c] + rest
    ensures IndexOf(prefix + [c] + rest, c) == |prefix|
  {
    var s := prefix + [c] + rest;
    assert s[|prefix|] == c;
    if |prefix| > 0 {
      assert s[1..] == prefix[1..] + [c] + rest;
      IndexOfAfterPrefix(prefix[1..], c, rest);
    }
  }
}

=== FILE: json.dfy ===
/** A parsed JSON document as JavaScript code sees it: truthiness, `typeof`,
    property reads and `Object.keys`.  Objects keep their members in
    document order, which is the order `Object.keys` reports for the
    non-integer keys an OpenAPI document uses. */
module Json {
  import opened Wrappers

  datatype Json =
    | Null
    | Bool(b: bool)
    | Num(n: real)
    | Str(s: string)
    | Arr(items: seq<Json>)
    | Obj(members: seq<(string, Json)>)

  /** JavaScript truthiness of a property value; `None` is `undefined`. */
  predicate Truthy(v: Option<Json>) {
    match v
    case None => false
    case Some(j) =>
      match j
      case Null => false
      case Bool(b) => b
      case Num(n) => n != 0.0
      case Str(s) => s != ""
      case Arr(_) => true
      case Obj(_) => true
  }

  /** `typeof v === 'object'` (true of `null` as well). */
  predicate IsObjectType(v: Option<Json>) {
    v.Some? && (v.value.Null? || v.value.Arr? || v.value.Obj?)
  }

  /** The value of the first member named `key`. */
  function Lookup(members: seq<(string, Json)>, key: string): (r: Option<Json>)
    ensures r.Some? <==> exists i :: 0 <= i < |members| && members[i].0 == key
    ensures r.Some? ==>
              exists i :: 0 <= i < |members| && members[i] == (key, r.value) &&
                          forall j :: 0 <= j < i ==> members[j].0 != key
  {
    if |members| == 0 then None
    else if members[0].0 == key then Some(members[0].1)
    else
      var r := Lookup(members[1..], key);
      assert forall i :: 0 < i < |members| ==> members[i] == members[1..][i - 1];
      r
  }

  /** `v[key]` on a value that is neither `null` nor `undefined`.  Only own
      members of plain objects are seen; see README for what this leaves out. */
  function Get(v: Json, key: string): Option<Json> {
    if v.Obj? then Lookup(v.members, key) else None
  }

  /** `Object.keys(v)` for the values this model gives keys to. */
  function Keys(v: Json): seq<string> {
    if v.Obj? then seq(|v.members|, i requires 0 <= i < |v.members| => v.members[i].0) else []
  }

  /** `Object.entries(v)`. */
  function Entries(v: Json): seq<(string, Json)> {
    if v.Obj? then v.members else []
  }

  /** The TypeError V8 raises for `x[key]` when `x` is `undefined` or `null`. */
  datatype TypeError = CannotRead(onNull: bool, key: string) {
    function Message(): string {
      "Cannot read properties of " + (if onNull then "null" else "undefined") + " (reading '" + key + "')"
    }
  }

  /** `v[key]` for any JavaScript value `v`, including `undefined` (`None`) and `null`. */
  function Read(v: Option<Json>, key: string): (r: Result<Option<Json>, TypeError>)
    ensures r.Failure? <==> v.None? || v.value.Null?
    ensures r.Failure? ==> r.error == CannotRead(v.Some?, key)
    ensures r.Success? ==> r.value == Get(v.value, key)
  {
    match v
    case None => Failure(CannotRead(false, key))
    case Some(j) => if j.Null? then Failure(CannotRead(true, key)) else Success(Get(j, key))
  }

  /** Every key `Object.keys` lists can be read back, and nothing else is readable. */
  lemma KeysAreReadable(v: Json, key: string)
    ensures key in Keys(v) <==> Get(v, key).Some?
  {
    if v.Obj? {
      if key in Keys(v) {
        var i :| 0 <= i < |Keys(v)| && Keys(v)[i] == key;
        assert v.members[i].0 == key;
      }
      if Get(v, key).Some? {
        var i :| 0 <= i < |v.members| && v.members[i].0 == key;
        assert Keys(v)[i] == key;
      }
    }
  }
}

=== FILE: openapi_fetcher.dfy ===
/** Spec acquisition: the decision `fetchOpenAPISpec` makes over the outcomes
    of its two HTTP requests (health probe, then the spec document), and the
    fetcher state that holds the accepted document. */
module OpenApiFetcher {
  import opened Wrappers
  import opened Json
  import opened JsText

  /** A response the HTTP client resolved with. */
  datatype HttpResponse = HttpResponse(status: int, statusText: string, data: Option<Json>)

  /** A thrown JavaScript error.  Client errors carry a `code` (such as
      `ECONNREFUSED`) and, when the server answered, the `response`;
      an error made with `new Error(message)` carries neither. */
  datatype JsError = JsError(code: Option<string>, response: Option<HttpResponse>, message: string)

  function PlainError(message: string): JsError {
    JsError(None, None, message)
  }

  /** What one awaited request gives: a response, or a thrown error. */
  datatype Outcome = Responded(response: HttpResponse) | Threw(error: JsError)

  /** The fetcher's settings; the request timeout only configures the
      transport and is not part of the model. */
  datatype Config = Config(serverUrl: string, openApiEndpoint: string, healthEndpoint: string)

  /** The fetcher's state: the server it talks to and the accepted document, if any. */
  datatype Fetcher = Fetcher(serverUrl: string, openApiSpec: Option<Json>)

  function NewFetcher(config: Config): Fetcher {
    Fetcher(config.serverUrl, None)
  }

  const ConnectionRefused := "ECONNREFUSED"

  /** The error `fetchOpenAPISpec` finally throws, by how its catch block
      classified what reached it. */
  datatype AcquisitionError =
    | CannotConnect
    | UpstreamStatus(status: int, statusText: string)
    | Wrapped(detail: string)
  {
    function Message(config: Config, serverUrl: string): (m: string)
      ensures CannotConnect? ==> CannotConnectPrefix + serverUrl <= m
      ensures !CannotConnect? ==> FailedToFetchPrefix(config, serverUrl) <= m
      ensures UpstreamStatus? ==> EndsWith(m, IntToString(status) + ": " + statusText)
      ensures Wrapped? ==> EndsWith(m, "Error: " + detail)
    {
      match this
      case CannotConnect =>
        ConcatParts(CannotConnectPrefix + serverUrl, ". Please ensure the server is running before executing tests.");
        (CannotConnectPrefix + serverUrl) + ". Please ensure the server is running before executing tests."
      case UpstreamStatus(status, statusText) =>
        var prefix := FailedToFetchPrefix(config, serverUrl) + "Server responded with status ";
        ConcatParts(prefix, IntToString(status) + ": " + statusText);
        ConcatParts(FailedToFetchPrefix(config, serverUrl), "Server responded with status ");
        prefix + (IntToString(status) + ": " + statusText)
      case Wrapped(detail) =>
        ConcatParts(FailedToFetchPrefix(config, serverUrl), "Error: " + detail);
        FailedToFetchPrefix(config, serverUrl) + ("Error: " + detail)
    }
  }

  /** The opening every fetch failure other than a refused connection shares. */
  function FailedToFetchPrefix(config: Config, serverUrl: string): string {
    "Failed to fetch OpenAPI schema from " + serverUrl + config.openApiEndpoint + ". "
  }

  predicate EndsWith(s: string, suffix: string) {
    |suffix| <= |s| && s[|s| - |suffix|..] == suffix
  }

  /** A concatenation starts with its first part and ends with its second. */
  lemma ConcatParts(a: string, b: string)
    ensures a <= a + b && EndsWith(a + b, b)
  {
    assert (a + b)[|a + b| - |b|..] == b;
  }

  /** The catch block of `fetchOpenAPISpec`: connection refused first, then an
      error that carries a response, then everything else by its message. */
  function Classify(e: JsError): (r: AcquisitionError)
    ensures r.CannotConnect? <==> e.code == Some(ConnectionRefused)
    ensures r.UpstreamStatus? <==> e.code != Some(ConnectionRefused) && e.response.Some?
    ensures r.UpstreamStatus? ==> r == UpstreamStatus(e.response.value.status, e.response.value.statusText)
    ensures r.Wrapped? ==> r.detail == e.message
  {
    if e.code == Some(ConnectionRefused) then CannotConnect
    else if e.response.Some? then UpstreamStatus(e.response.value.status, e.response.value.statusText)
    else Wrapped(e.message)
  }

  /** The opening of both "cannot connect" messages: the probe's and the catch block's. */
  const CannotConnectPrefix := "Cannot connect to calendar-app-api server at "

  /** The health probe passed: it answered with status 200. */
  predicate HealthPassed(health: Outcome) {
    health.Responded? && health.response.status == 200
  }

  /** `checkServerHealth()`: `None` when it returns, otherwise what it throws.
      A status other than 200 becomes a plain error; a refused connection is
      replaced by a plain "Cannot connect" error; any other error propagates
      as it is. */
  function CheckServerHealth(f: Fetcher, health: Outcome): (r: Option<JsError>)
    ensures r.None? <==> HealthPassed(health)
    ensures health.Responded? && health.response.status != 200 ==>
              r == Some(PlainError("Health check failed with status " + IntToString(health.response.status)))
    ensures health.Threw? && health.error.code == Some(ConnectionRefused) ==>
              r == Some(PlainError(CannotConnectPrefix + f.serverUrl + ". Please start the server before running tests."))
    ensures health.Threw? && health.error.code != Some(ConnectionRefused) ==> r == Some(health.error)
  {
    var thrown :=
      match health
      case Responded(response) =>
        if response.status != 200
        then Some(PlainError("Health check failed with status " + IntToString(response.status)))
        else None
      case Threw(e) => Some(e);
    if thrown.None? then None
    else if thrown.value.code == Some(ConnectionRefused)
    then Some(PlainError(CannotConnectPrefix + f.serverUrl + ". Please start the server before running tests."))
    else thrown
  }

  const NotAnObjectMessage := "Invalid OpenAPI specification received - not a valid JSON object"
  const NotAnOpenApiMessage := "Response does not appear to be a valid OpenAPI specification"

  /** The two shape checks on a response body: `None` when the body is
      accepted, otherwise the message of the error thrown. */
  function ShapeCheck(data: Option<Json>): Option<string> {
    if !Truthy(data) || !IsObjectType(data) then Some(NotAnObjectMessage)
    else if !Truthy(Get(data.value, "openapi")) && !Truthy(Get(data.value, "swagger")) then Some(NotAnOpenApiMessage)
    else None
  }

  /** An independent reading of what the shape checks accept: a JSON object
      (not an array) with a truthy `openapi` or `swagger` member. */
  predicate LooksLikeOpenApi(data: Option<Json>) {
    && data.Some?
    && data.value.Obj?
    && (Truthy(Lookup(data.value.members, "openapi")) || Truthy(Lookup(data.value.members, "swagger")))
  }

  /** One run of `fetchOpenAPISpec`: the fetcher state afterwards, the URLs
      requested in order, and the document returned or the error thrown. */
  datatype FetchRun = FetchRun(fetcher: Fetcher, requested: seq<string>, result: Result<Json, AcquisitionError>)

  /** `fetchOpenAPISpec()`, given what the health probe and (if it is made)
      the spec request give. */
  function FetchOpenAPISpec(config: Config, f: Fetcher, health: Outcome, specRequest: Outcome): (r: FetchRun)
    ensures |r.requested| >= 1 && r.requested[0] == f.serverUrl + config.healthEndpoint
    ensures !HealthPassed(health) ==> r.requested == [f.serverUrl + config.healthEndpoint] && r.result.Failure?
    ensures HealthPassed(health) ==>
              r.requested == [f.serverUrl + config.healthEndpoint, f.serverUrl + config.openApiEndpoint]
    ensures r.result.Success? <==>
              HealthPassed(health) && specRequest.Responded? && LooksLikeOpenApi(specRequest.response.data)
    ensures r.result.Success? ==>
              Some(r.result.value) == specRequest.response.data && r.fetcher == Fetcher(f.serverUrl, Some(r.result.value))
    ensures r.result.Failure? ==> r.fetcher == f
    ensures !HealthPassed(health) ==> r.result == Failure(Classify(CheckServerHealth(f, health).value))
    ensures HealthPassed(health) && specRequest.Threw? ==> r.result == Failure(Classify(specRequest.error))
  {
    var healthUrl := f.serverUrl + config.healthEndpoint;
    var specUrl := f.serverUrl + config.openApiEndpoint;
    match CheckServerHealth(f, health)
    case Some(e) => FetchRun(f, [healthUrl], Failure(Classify(e)))
    case None =>
      match specRequest
      case Threw(e) => FetchRun(f, [healthUrl, specUrl], Failure(Classify(e)))
      case Responded(response) =>
        match ShapeCheck(response.data)
        case Some(message) => FetchRun(f, [healthUrl, specUrl], Failure(Classify(PlainError(message))))
        case None =>
          FetchRun(Fetcher(f.serverUrl, response.data), [healthUrl, specUrl], Success(response.data.value))
  }

  /** `getOpenAPISpec()`. */
  function GetOpenAPISpec(f: Fetcher): (r: Result<Json, string>)
    ensures r.Success? <==> Truthy(f.openApiSpec)
    ensures r.Success? ==> Some(r.value) == f.openApiSpec
    ensures r.Failure? ==> r.error == "OpenAPI specification not loaded. Call fetchOpenAPISpec() first."
  {
    if !Truthy(f.openApiSpec) then Failure("OpenAPI specification not loaded. Call fetchOpenAPISpec() first.")
    else Success(f.openApiSpec.value)
  }

  // ---- properties of acquisition ----

  /** A refused health probe is not reported as "cannot connect" by the outer
      classification: the probe re-throws it as a plain error, which reaches
      the caller through the generic wrapper, and the spec is never requested. */
  lemma HealthRefusedIsWrapped(config: Config, f: Fetcher, health: Outcome, specRequest: Outcome)
    requires health.Threw? && health.error.code == Some(ConnectionRefused)
    ensures var r := FetchOpenAPISpec(config, f, health, specRequest);
            && r.requested == [f.serverUrl + config.healthEndpoint]
            && r.result == Failure(Wrapped(CannotConnectPrefix + f.serverUrl + ". Please start the server before running tests."))
  {
  }

  /** A probe that answers with a status other than 200 fails through the
      generic wrapper with the status in its message. */
  lemma HealthStatusIsWrapped(config: Config, f: Fetcher, health: Outcome, specRequest: Outcome)
    requires health.Responded? && health.response.status != 200
    ensures FetchOpenAPISpec(config, f, health, specRequest).result
            == Failure(Wrapped("Health check failed with status " + IntToString(health.response.status)))
  {
  }

  /** A client error carrying a response, from either request, is reported
      with the response's status, unless its code is a refused connection. */
  lemma ResponseErrorsReportStatus(config: Config, f: Fetcher, health: Outcome, specRequest: Outcome)
    requires
      || (health.Threw? && health.error.code != Some(ConnectionRefused) && health.error.response.Some?)
      || (HealthPassed(health) && specRequest.Threw? && specRequest.error.code != Some(ConnectionRefused)
          && specRequest.error.response.Some?)
    ensures var e := if health.Threw? then health.error else specRequest.error;
            FetchOpenAPISpec(config, f, health, specRequest).result
            == Failure(UpstreamStatus(e.response.value.status, e.response.value.statusText))
  {
  }

  /** Only a refused spec request, after a passing probe, is reported as
      "cannot connect". */
  lemma CannotConnectOnlyFromSpecRequest(config: Config, f: Fetcher, health: Outcome, specRequest: Outcome)
    ensures FetchOpenAPISpec(config, f, health, specRequest).result == Failure(CannotConnect)
            <==> HealthPassed(health) && specRequest.Threw? && specRequest.error.code == Some(ConnectionRefused)
  {
  }

  /** A body that is not a JSON object, or an object with neither a truthy
      `openapi` nor a truthy `swagger`, is rejected through the generic wrapper. */
  lemma MalformedBodyIsWrapped(config: Config, f: Fetcher, health: Outcome, specRequest: Outcome)
    requires HealthPassed(health) && specRequest.Responded?
    ensures var data := specRequest.response.data;
            var r := FetchOpenAPISpec(config, f, health, specRequest);
            && (!Truthy(data) || !IsObjectType(data) ==> r.result == Failure(Wrapped(NotAnObjectMessage)))
            && (Truthy(data) && IsObjectType(data) && !LooksLikeOpenApi(data) ==> r.result == Failure(Wrapped(NotAnOpenApiMessage)))
  {
  }

  /** What the fetcher holds is either nothing or a document that passed the
      shape checks. */
  predicate HoldsAcceptedSpec(f: Fetcher) {
    f.openApiSpec.None? || LooksLikeOpenApi(f.openApiSpec)
  }

  /** Fetching keeps the held document accepted, and `getOpenAPISpec` then
      returns the document just fetched, or what it returned before when the
      fetch failed. */
  lemma FetchKeepsAcceptedSpec(config: Config, f: Fetcher, health: Outcome, specRequest: Outcome)
    requires HoldsAcceptedSpec(f)
    ensures var r := FetchOpenAPISpec(config, f, health, specRequest);
            && HoldsAcceptedSpec(r.fetcher)
            && (r.result.Success? ==> GetOpenAPISpec(r.fetcher) == Success(r.result.value))
            && (r.result.Failure? ==> GetOpenAPISpec(r.fetcher) == GetOpenAPISpec(f))
  {
  }

  /** What the caller reads when a fetch fails: a failed probe and a malformed
      body give the "Failed to fetch" message, never the bare "Cannot connect";
      a refused spec request gives "Cannot connect"; and any other thrown error
      keeps its own message at the end. */
  lemma FailureMessageNamesCause(config: Config, f: Fetcher, health: Outcome, specRequest: Outcome)
    ensures var r := FetchOpenAPISpec(config, f, health, specRequest);
            var m := if r.result.Failure? then r.result.error.Message(config, f.serverUrl) else "";
            && (!HealthPassed(health) ==> FailedToFetchPrefix(config, f.serverUrl) <= m)
            && (HealthPassed(health) && specRequest.Responded? && !LooksLikeOpenApi(specRequest.response.data) ==>
                  FailedToFetchPrefix(config, f.serverUrl) <= m)
            && (HealthPassed(health) && specRequest.Threw? && specRequest.error.code == Some(ConnectionRefused) ==>
                  CannotConnectPrefix + f.serverUrl <= m)
            && (HealthPassed(health) && specRequest.Threw? && specRequest.error.code != Some(ConnectionRefused) &&
                specRequest.error.response.None? ==>
                  EndsWith(m, "Error: " + specRequest.error.message))
  {
  }

  /** A new fetcher has no document until a fetch succeeds. */
  lemma SpecUnavailableBeforeFetch(config: Config)
    ensures HoldsAcceptedSpec(NewFetcher(config))
    ensures GetOpenAPISpec(NewFetcher(config)).Failure?
  {
  }
}

=== FILE: scenarios.dfy ===
/** The queries on a small document shaped like the calendar service's, with
    the answers its API tests expect. */
module Scenarios {
  import opened Wrappers
  import opened Json
  import opened JsText
  import opened SchemaEngine
  import opened SchemaValidator
  import ValidatorLemmas

  const GetEvents: Json :=
    Obj([("operationId", Str("getCalendarEvents")),
         ("responses", Obj([("200", Obj([]))]))])

  const CreateEvent: Json :=
    Obj([("operationId", Str("createCalendarEvent")),
         ("responses", Obj([("201", Obj([])), ("400", Obj([])), ("default", Obj([]))]))])

  const EventsItem: Json := Obj([("get", GetEvents), ("post", CreateEvent)])

  const EventsPaths: Json := Obj([("/api/events", EventsItem)])

  const EventsDoc: Document := Obj([("openapi", Str("3.0.0")), ("paths", EventsPaths)])

  lemma EventsPathsLayout()
    ensures Paths(EventsDoc) == Some(EventsPaths) && PathsReadable(EventsDoc)
    ensures PathItem(EventsDoc, "/api/events") == Some(EventsItem)
    ensures PathItem(EventsDoc, "/undeclared-path") == None
  {
    assert |"openapi"| != |"paths"|;
    assert EventsDoc.members[1..] == [("paths", EventsPaths)];
    assert Lookup(EventsDoc.members, "paths") == Lookup(EventsDoc.members[1..], "paths");
    assert |"/api/events"| != |"/undeclared-path"|;
  }

  lemma EventsItemLayout()
    ensures Get(EventsItem, "get") == Some(GetEvents)
    ensures Get(EventsItem, "post") == Some(CreateEvent)
  {
    assert |"get"| != |"post"|;
    assert EventsItem.members[1..] == [("post", CreateEvent)];
    assert Lookup(EventsItem.members, "post") == Lookup(EventsItem.members[1..], "post");
  }

  lemma EventsOperationsLayout()
    ensures Operation(EventsDoc, "/api/events", "get") == Some(GetEvents)
    ensures Operation(EventsDoc, "/api/events", "post") == Some(CreateEvent)
  {
    EventsPathsLayout();
    EventsItemLayout();
    assert ToLowerCase("get") == "get";
    assert ToLowerCase("post") == "post";
    assert GetOperation(EventsDoc, "/api/events", "get") == Success(Get(EventsItem, "get"));
    assert GetOperation(EventsDoc, "/api/events", "post") == Success(Get(EventsItem, "post"));
  }

  lemma StatusKeys()
    ensures IntToString(200) == "200" && IntToString(201) == "201"
    ensures IntToString(400) == "400" && IntToString(404) == "404"
  {
  }

  lemma LowerCasePost()
    ensures ToLowerCase("POST") == "post"
  {
  }

  /** `getOperationId('/api/events', 'post')` is `createCalendarEvent`, whatever
      the case of the method. */
  lemma CreateEventOperationId()
    ensures GetOperationId(EventsDoc, "/api/events", "post") == Success(Some(Str("createCalendarEvent")))
    ensures GetOperationId(EventsDoc, "/api/events", "POST") == Success(Some(Str("createCalendarEvent")))
  {
    EventsPathsLayout();
    EventsOperationsLayout();
    LowerCasePost();
    ValidatorLemmas.MethodCaseInsensitive(EventsDoc, "/api/events", "POST");
    assert GetOperation(EventsDoc, "/api/events", "POST") == GetOperation(EventsDoc, "/api/events", "post");
  }

  lemma CreateEventResponses()
    ensures ResponseEntry(CreateEvent, "201") == Some(Obj([]))
    ensures ResponseEntry(CreateEvent, "400") == Some(Obj([]))
  {
    var responses := Obj([("201", Obj([])), ("400", Obj([])), ("default", Obj([]))]);
    assert Responses(CreateEvent) == Some(responses) by {
      assert CreateEvent.members[1..] == [("responses", responses)];
    }
    assert responses.members[1..] == [("400", Obj([])), ("default", Obj([]))];
    assert "201" != "400" by {
      assert "201"[0] != "400"[0];
    }
  }

  /** `getExpectedStatusCodes('/api/events', 'post')` contains 201 and 400. */
  lemma CreateEventStatusCodes()
    ensures GetExpectedStatusCodes(EventsDoc, "/api/events", "post").Success?
    ensures 201 in GetExpectedStatusCodes(EventsDoc, "/api/events", "post").value
    ensures 400 in GetExpectedStatusCodes(EventsDoc, "/api/events", "post").value
  {
    EventsPathsLayout();
    EventsOperationsLayout();
    StatusKeys();
    CreateEventResponses();
    ValidatorLemmas.ExactResponseIsExpectedStatus(EventsDoc, "/api/events", "post", 201);
    ValidatorLemmas.ExactResponseIsExpectedStatus(EventsDoc, "/api/events", "post", 400);
  }

  /** An undeclared path raises in response validation, for any engine. */
  lemma UndeclaredPathRaises(engine: Engine, data: Json)
    ensures ValidateResponse(Validator(EventsDoc, engine, []), "/undeclared-path", "get", 200, data)
            == Failure(OperationNotFound("get", "/undeclared-path"))
  {
    EventsPathsLayout();
    EventsOperationsLayout();
  }

  lemma NoSchemaMessage404()
    ensures "No schema defined for " + IntToString(404) + " response" == "No schema defined for 404 response"
  {
    StatusKeys();
  }

  /** A 404 body against an operation declaring only 200 is not checked. */
  lemma UndeclaredStatusNotChecked(engine: Engine, data: Json)
    ensures ValidateResponse(Validator(EventsDoc, engine, []), "/api/events", "get", 404, data)
            == Success(NoSchema("No schema defined for 404 response"))
  {
    EventsPathsLayout();
    EventsOperationsLayout();
    NoSchemaMessage404();
    assert IntToString(404) == "404" by {
      StatusKeys();
    }
    var responses := Obj([("200", Obj([]))]);
    assert Responses(GetEvents) == Some(responses) by {
      assert GetEvents.members[1..] == [("responses", responses)];
    }
    assert "200" != "404" by {
      assert "200"[0] != "404"[0];
    }
    assert ResponseEntry(GetEvents, "404") == None;
    assert |"200"| != |"default"|;
    assert ResponseEntry(GetEvents, "default") == None;
    ValidatorLemmas.UndeclaredStatusIsNotChecked(Validator(EventsDoc, engine, []), "/api/events", "get", 404, data);
  }
}

=== FILE: schema_engine.dfy ===
/** The JSON-Schema engine (Ajv) seen from the validator: a schema registry
    keyed by reference name, and an oracle that compiles a schema and runs it
    on a payload.  Nothing here models JSON-Schema semantics. */
module SchemaEngine {
  import opened Wrappers
  import opened Json

  /** One structured error; the harness reads only these two fields. */
  datatype SchemaError = SchemaError(instancePath: string, message: string)

  /** Compiling `schema` and running it on a payload: compilation may throw;
      a passing run carries no errors (the engine leaves `errors` null), a
      failing one carries the engine's list, which may itself be null. */
  datatype EngineRun =
    | CompileError(reason: string)
    | Passed
    | Failed(errors: Option<seq<SchemaError>>)

  /** A schema added to the registry under `key`. */
  datatype Registration = Registration(key: string, schema: Json)

  /** The engine as two oracles over the current registry: whether `addSchema`
      accepts a schema under a fresh key, and what compiling and running a
      schema on a payload gives. */
  datatype Engine = Engine(
    accepts: (seq<Registration>, string, Json) -> bool,
    run: (seq<Registration>, Json, Json) -> EngineRun)

  /** The reference key a component schema is registered under. */
  function SchemaKey(name: string): string {
    "#/components/schemas/" + name
  }

  lemma SchemaKeyInjective(a: string, b: string)
    ensures SchemaKey(a) == SchemaKey(b) ==> a == b
  {
    var prefix := "#/components/schemas/";
    if SchemaKey(a) == SchemaKey(b) {
      assert a == SchemaKey(a)[|prefix|..];
      assert b == SchemaKey(b)[|prefix|..];
    }
  }

  function RegisteredKeys(reg: seq<Registration>): seq<string> {
    seq(|reg|, i requires 0 <= i < |reg| => reg[i].key)
  }

  ghost predicate DistinctKeys(reg: seq<Registration>) {
    forall i, j :: 0 <= i < j < |reg| ==> reg[i].key != reg[j].key
  }

  /** No other entry carries the name of entry `i`. */
  predicate UniqueName(entries: seq<(string, Json)>, i: int)
    requires 0 <= i < |entries|
  {
    forall j :: 0 <= j < |entries| && j != i ==> entries[j].0 != entries[i].0
  }

  /** The engine accepts `schema` under `key` whatever is registered already. */
  ghost predicate AlwaysAccepted(accepts: (seq<Registration>, string, Json) -> bool, key: string, schema: Json) {
    forall g :: accepts(g, key, schema)
  }

  /** Every entry with a fresh key and a unique name that the engine accepts
      under any registry ends up in `r`, whatever happens to the others. */
  ghost predicate KeepsAccepted(accepts: (seq<Registration>, string, Json) -> bool,
                                reg: seq<Registration>, entries: seq<(string, Json)>, r: seq<Registration>) {
    forall i :: 0 <= i < |entries| && SchemaKey(entries[i].0) !in RegisteredKeys(reg) &&
                UniqueName(entries, i) && AlwaysAccepted(accepts, SchemaKey(entries[i].0), entries[i].1) ==>
      Registration(SchemaKey(entries[i].0), entries[i].1) in r
  }

  /** Every registration appended after `reg` is one of the entries under its
      reference key. */
  ghost predicate FromEntries(reg: seq<Registration>, entries: seq<(string, Json)>, r: seq<Registration>) {
    forall k :: |reg| <= k < |r| ==>
      exists i :: 0 <= i < |entries| && r[k] == Registration(SchemaKey(entries[i].0), entries[i].1)
  }

  /** Every registration appended after `reg` was accepted by the engine
      under the registry as it stood when it was added; nothing the engine
      refused is kept. */
  ghost predicate EachAccepted(accepts: (seq<Registration>, string, Json) -> bool,
                               reg: seq<Registration>, r: seq<Registration>) {
    forall k :: |reg| <= k < |r| ==> accepts(r[..k], r[k].key, r[k].schema)
  }

  /** `addSchema` for each `(name, schema)` entry in order.  A key already in
      the registry is refused (the engine's uniqueness rule) and so is a schema
      the engine rejects; a refused entry is skipped and the fold carries on. */
  function RegisterEach(accepts: (seq<Registration>, string, Json) -> bool,
                        reg: seq<Registration>, entries: seq<(string, Json)>): (r: seq<Registration>)
    ensures reg <= r
    ensures FromEntries(reg, entries, r)
    ensures DistinctKeys(reg) ==> DistinctKeys(r)
    ensures KeepsAccepted(accepts, reg, entries, r)
    decreases |entries|
  {
    if |entries| == 0 then reg
    else
      var key := SchemaKey(entries[0].0);
      var next := if key !in RegisteredKeys(reg) && accepts(reg, key, entries[0].1)
                  then reg + [Registration(key, entries[0].1)]
                  else reg;
      DistinctAfterStep(accepts, reg, next, entries);
      var r := RegisterEach(accepts, next, entries[1..]);
      FromEntriesStep(accepts, reg, next, entries, r);
      KeepsAcceptedStep(accepts, reg, next, entries, r);
      r
  }

  /** The first step of the fold appends only a key not yet registered. */
  lemma DistinctAfterStep(accepts: (seq<Registration>, string, Json) -> bool, reg: seq<Registration>,
                          next: seq<Registration>, entries: seq<(string, Json)>)
    requires |entries| > 0
    requires next == if SchemaKey(entries[0].0) !in RegisteredKeys(reg) && accepts(reg, SchemaKey(entries[0].0), entries[0].1)
                     then reg + [Registration(SchemaKey(entries[0].0), entries[0].1)] else reg
    ensures DistinctKeys(reg) ==> DistinctKeys(next)
  {
    if DistinctKeys(reg) && next != reg {
      forall i | 0 <= i < |reg|
        ensures reg[i].key != SchemaKey(entries[0].0)
      {
        assert RegisteredKeys(reg)[i] == reg[i].key;
      }
    }
  }

  /** What the first step and the rest of the fold append all comes from the entries. */
  lemma FromEntriesStep(accepts: (seq<Registration>, string, Json) -> bool, reg: seq<Registration>,
                        next: seq<Registration>, entries: seq<(string, Json)>, r: seq<Registration>)
    requires |entries| > 0
    requires next == if SchemaKey(entries[0].0) !in RegisteredKeys(reg) && accepts(reg, SchemaKey(entries[0].0), entries[0].1)
                     then reg + [Registration(SchemaKey(entries[0].0), entries[0].1)] else reg
    requires next <= r
    requires FromEntries(next, entries[1..], r)
    ensures FromEntries(reg, entries, r)
  {
    forall k | |reg| <= k < |r|
      ensures exists i :: 0 <= i < |entries| && r[k] == Registration(SchemaKey(entries[i].0), entries[i].1)
    {
      if k < |next| {
        assert r[k] == next[k];
        assert r[k] == Registration(SchemaKey(entries[0].0), entries[0].1);
      } else {
        var i :| 0 <= i < |entries[1..]| && r[k] == Registration(SchemaKey(entries[1..][i].0), entries[1..][i].1);
        assert entries[1..][i] == entries[i + 1];
      }
    }
  }

  /** One step of the fold keeps every accepted entry: the first is appended
      when accepted, and the rest are kept by the recursive call. */
  lemma KeepsAcceptedStep(accepts: (seq<Registration>, string, Json) -> bool, reg: seq<Registration>,
                          next: seq<Registration>, entries: seq<(string, Json)>, r: seq<Registration>)
    requires |entries| > 0
    requires next == if SchemaKey(entries[0].0) !in RegisteredKeys(reg) && accepts(reg, SchemaKey(entries[0].0), entries[0].1)
                     then reg + [Registration(SchemaKey(entries[0].0), entries[0].1)] else reg
    requires next <= r
    requires KeepsAccepted(accepts, next, entries[1..], r)
    ensures KeepsAccepted(accepts, reg, entries, r)
  {
    forall i | 0 <= i < |entries| && SchemaKey(entries[i].0) !in RegisteredKeys(reg) &&
               UniqueName(entries, i) && AlwaysAccepted(accepts, SchemaKey(entries[i].0), entries[i].1)
      ensures Registration(SchemaKey(entries[i].0), entries[i].1) in r
    {
      if i == 0 {
        assert accepts(reg, SchemaKey(entries[0].0), entries[0].1);
        assert r[|reg|] == next[|reg|];
      } else {
        assert entries[i] == entries[1..][i - 1];
        SkippedEntryStaysFresh(reg, next, entries, i);
        UniqueNameInRest(entries, i);
      }
    }
  }

  /** The fold, read one entry at a time from the front: registering one more
      entry runs `addSchema` on the registry the earlier entries left.  The
      entry is added exactly when its key is still free and the engine accepts
      it under that registry, and the earlier registrations stay as they were,
      whether or not it is refused. */
  lemma {:induction false} RegisterEachAppend(accepts: (seq<Registration>, string, Json) -> bool,
                                              reg: seq<Registration>, entries: seq<(string, Json)>, e: (string, Json))
    ensures RegisterEach(accepts, reg, entries + [e]) ==
            var before := RegisterEach(accepts, reg, entries);
            if SchemaKey(e.0) !in RegisteredKeys(before) && accepts(before, SchemaKey(e.0), e.1)
            then before + [Registration(SchemaKey(e.0), e.1)]
            else before
    decreases |entries|
  {
    if |entries| == 0 {
      assert entries + [e] == [e];
      assert [e][1..] == [];
    } else {
      var key := SchemaKey(entries[0].0);
      var next := if key !in RegisteredKeys(reg) && accepts(reg, key, entries[0].1)
                  then reg + [Registration(key, entries[0].1)]
                  else reg;
      assert (entries + [e])[0] == entries[0];
      assert (entries + [e])[1..] == entries[1..] + [e];
      RegisterEachAppend(accepts, next, entries[1..], e);
    }
  }

  /** One step of the fold keeps only accepted registrations: the first entry
      is appended only when the engine accepts it under `reg`. */
  lemma EachAcceptedStep(accepts: (seq<Registration>, string, Json) -> bool, reg: seq<Registration>,
                         next: seq<Registration>, entries: seq<(string, Json)>, r: seq<Registration>)
    requires |entries| > 0
    requires next == if SchemaKey(entries[0].0) !in RegisteredKeys(reg) && accepts(reg, SchemaKey(entries[0].0), entries[0].1)
                     then reg + [Registration(SchemaKey(entries[0].0), entries[0].1)] else reg
    requires next <= r
    requires EachAccepted(accepts, next, r)
    ensures EachAccepted(accepts, reg, r)
  {
    if next != reg {
      assert r[..|reg|] == next[..|reg|] == reg;
      assert r[|reg|] == next[|reg|];
    }
  }

  /** The other half of skip-on-failure: the fold keeps nothing the engine
      refused, since every registration it appends was accepted under the
      registry as it stood at that point. */
  lemma {:induction false} RegisterEachKeepsOnlyAccepted(accepts: (seq<Registration>, string, Json) -> bool,
                                                         reg: seq<Registration>, entries: seq<(string, Json)>)
    ensures EachAccepted(accepts, reg, RegisterEach(accepts, reg, entries))
    decreases |entries|
  {
    if |entries| > 0 {
      var key := SchemaKey(entries[0].0);
      var next := if key !in RegisteredKeys(reg) && accepts(reg, key, entries[0].1)
                  then reg + [Registration(key, entries[0].1)]
                  else reg;
      assert RegisterEach(accepts, reg, entries) == RegisterEach(accepts, next, entries[1..]);
      RegisterEachKeepsOnlyAccepted(accepts, next, entries[1..]);
      EachAcceptedStep(accepts, reg, next, entries, RegisterEach(accepts, next, entries[1..]));
    }
  }

  /** A later entry whose key was fresh before the first step stays fresh
      after it, when no other entry shares its name. */
  lemma SkippedEntryStaysFresh(reg: seq<Registration>, next: seq<Registration>, entries: seq<(string, Json)>, i: int)
    requires 0 < i < |entries|
    requires next == reg || next == reg + [Registration(SchemaKey(entries[0].0), entries[0].1)]
    requires SchemaKey(entries[i].0) !in RegisteredKeys(reg)
    requires UniqueName(entries, i)
    ensures SchemaKey(entries[i].0) !in RegisteredKeys(next)
  {
    if next != reg {
      assert RegisteredKeys(next) == RegisteredKeys(reg) + [SchemaKey(entries[0].0)];
      SchemaKeyInjective(entries[0].0, entries[i].0);
    }
  }

  /** A unique name stays unique in the entries after the first. */
  lemma UniqueNameInRest(entries: seq<(string, Json)>, i: int)
    requires 0 < i < |entries|
    requires UniqueName(entries, i)
    ensures UniqueName(entries[1..], i - 1)
  {
    forall j | 0 <= j < |entries| - 1 && j != i - 1
      ensures entries[1..][j].0 != entries[1..][i - 1].0
    {
      assert entries[1..][j] == entries[j + 1];
    }
  }

  /** An engine that accepts every schema. */
  function AcceptAll(reg: seq<Registration>, key: string, schema: Json): bool {
    true
  }

  /** Every entry under its own key, in document order. */
  function KeyedEntries(entries: seq<(string, Json)>): seq<Registration> {
    if |entries| == 0 then [] else [Registration(SchemaKey(entries[0].0), entries[0].1)] + KeyedEntries(entries[1..])
  }

  /** One step of the fold under an engine that accepts everything: a fresh
      key is appended. */
  lemma AcceptAllStep(reg: seq<Registration>, entries: seq<(string, Json)>)
    requires |entries| > 0
    requires SchemaKey(entries[0].0) !in RegisteredKeys(reg)
    ensures RegisterEach(AcceptAll, reg, entries)
            == RegisterEach(AcceptAll, reg + [Registration(SchemaKey(entries[0].0), entries[0].1)], entries[1..])
  {
  }

  /** After appending the first entry, the remaining entries' keys are still fresh. */
  lemma FreshAfterStep(reg: seq<Registration>, entries: seq<(string, Json)>)
    requires |entries| > 0
    requires forall i, j :: 0 <= i < j < |entries| ==> entries[i].0 != entries[j].0
    requires forall i :: 0 <= i < |entries| ==> SchemaKey(entries[i].0) !in RegisteredKeys(reg)
    ensures forall i :: 0 <= i < |entries| - 1 ==>
              SchemaKey(entries[1..][i].0) !in RegisteredKeys(reg + [Registration(SchemaKey(entries[0].0), entries[0].1)])
  {
    var next := reg + [Registration(SchemaKey(entries[0].0), entries[0].1)];
    assert RegisteredKeys(next) == RegisteredKeys(reg) + [SchemaKey(entries[0].0)];
    forall i | 0 <= i < |entries| - 1
      ensures SchemaKey(entries[1..][i].0) !in RegisteredKeys(next)
    {
      assert entries[1..][i] == entries[i + 1];
      SchemaKeyInjective(entries[0].0, entries[i + 1].0);
    }
  }

  /** Appending the first entry's registration, then the rest keyed. */
  lemma KeyedEntriesAfterHead(reg: seq<Registration>, entries: seq<(string, Json)>)
    requires |entries| > 0
    ensures (reg + [Registration(SchemaKey(entries[0].0), entries[0].1)]) + KeyedEntries(entries[1..])
            == reg + KeyedEntries(entries)
  {
  }

  /** With an engine that accepts every schema and component names that are
      distinct, every entry is registered under its own key, in document order. */
  lemma {:induction false} RegisterEachAcceptingAll(reg: seq<Registration>, entries: seq<(string, Json)>)
    requires forall i, j :: 0 <= i < j < |entries| ==> entries[i].0 != entries[j].0
    requires forall i :: 0 <= i < |entries| ==> SchemaKey(entries[i].0) !in RegisteredKeys(reg)
    ensures RegisterEach(AcceptAll, reg, entries) == reg + KeyedEntries(entries)
    decreases |entries|
  {
    if |entries| > 0 {
      var head := Registration(SchemaKey(entries[0].0), entries[0].1);
      var rest := entries[1..];
      AcceptAllStep(reg, entries);
      FreshAfterStep(reg, entries);
      assert forall i, j :: 0 <= i < j < |rest| ==> rest[i].0 != rest[j].0 by {
        assert forall i :: 0 <= i < |rest| ==> rest[i] == entries[i + 1];
      }
      RegisterEachAcceptingAll(reg + [head], rest);
      KeyedEntriesAfterHead(reg, entries);
    }
  }
}

=== FILE: schema_validator.dfy ===
/** The contract index and validator: read-only queries over a parsed OpenAPI
    document, and the verdicts built from them with the schema engine. */
module SchemaValidator {
  import opened Wrappers
  import opened Json
  import opened JsText
  import opened SchemaEngine

  /** A document the validator can be built from: anything but `null`. */
  type Document = j: Json | !j.Null? witness Obj([])

  datatype Validator = Validator(spec: Document, engine: Engine, registry: seq<Registration>)

  /** The fixed method vocabulary, in the order methods are listed. */
  const HttpMethods: seq<string> := ["get", "post", "put", "patch", "delete", "head", "options"]

  // ---- construction and schema registration ----

  /** `components.schemas` as `[name, schema]` entries, or none. */
  function ComponentSchemas(spec: Document): seq<(string, Json)> {
    var components := Get(spec, "components");
    if !Truthy(components) then []
    else
      var schemas := Get(components.value, "schemas");
      if !Truthy(schemas) then [] else Entries(schemas.value)
  }

  /** Registering the component schemas: each accepted one lands under its
      reference key, no key twice, and a refused one is skipped. */
  function RegisterSchemas(spec: Document, engine: Engine): (r: seq<Registration>)
    ensures DistinctKeys(r)
    ensures forall k :: 0 <= k < |r| ==>
              exists i :: 0 <= i < |ComponentSchemas(spec)| &&
                          r[k] == Registration(SchemaKey(ComponentSchemas(spec)[i].0), ComponentSchemas(spec)[i].1)
    ensures KeepsAccepted(engine.accepts, [], ComponentSchemas(spec), r)
    ensures EachAccepted(engine.accepts, [], r)
  {
    assert RegisteredKeys([]) == [];
    RegisterEachKeepsOnlyAccepted(engine.accepts, [], ComponentSchemas(spec));
    RegisterEach(engine.accepts, [], ComponentSchemas(spec))
  }

  /** `new SchemaValidator(spec)`: reading `spec.components` throws on `null`. */
  function NewValidator(spec: Json, engine: Engine): (r: Result<Validator, TypeError>)
    ensures r.Failure? <==> spec.Null?
    ensures r.Success? ==> r.value.spec == spec && r.value.registry == RegisterSchemas(spec, engine)
  {
    if spec.Null? then Failure(CannotRead(true, "components"))
    else Success(Validator(spec, engine, RegisterSchemas(spec, engine)))
  }

  // ---- index queries ----

  function Paths(spec: Document): Option<Json> {
    Get(spec, "paths")
  }

  /** `spec.paths[path]` can be evaluated: `paths` is neither undefined nor null. */
  predicate PathsReadable(spec: Document) {
    Paths(spec).Some? && !Paths(spec).value.Null?
  }

  function PathItem(spec: Document, path: string): Option<Json> {
    if PathsReadable(spec) then Get(Paths(spec).value, path) else None
  }

  /** `getOperation(path, method)`.  `None` stands for the `null` returned for an
      unknown path and for an absent method entry alike. */
  function GetOperation(spec: Document, path: string, httpMethod: string): (r: Result<Option<Json>, TypeError>)
    ensures r.Failure? <==> !PathsReadable(spec)
    ensures r.Failure? ==> r.error == CannotRead(Paths(spec).Some?, path)
    ensures r.Success? && !Truthy(PathItem(spec, path)) ==> r.value.None?
    ensures r.Success? && Truthy(PathItem(spec, path)) ==> r.value == Get(PathItem(spec, path).value, ToLowerCase(httpMethod))
  {
    var item :- Read(Paths(spec), path);
    if !Truthy(item) then Success(None) else Success(Get(item.value, ToLowerCase(httpMethod)))
  }

  /** The operation as a value, `None` when reading it throws. */
  function Operation(spec: Document, path: string, httpMethod: string): Option<Json> {
    var r := GetOperation(spec, path, httpMethod);
    if r.Success? then r.value else None
  }

  /** The operation is documented: `getOperation` gives a truthy value. */
  predicate Documented(spec: Document, path: string, httpMethod: string) {
    Truthy(Operation(spec, path, httpMethod))
  }

  /** `getAllPaths()`: the keys of `paths` in document order, none when `paths` is falsy. */
  function GetAllPaths(spec: Document): (r: seq<string>)
    ensures forall p :: p in r <==> Truthy(Paths(spec)) && Get(Paths(spec).value, p).Some?
    ensures Paths(spec).Some? && Paths(spec).value.Obj? ==>
              |r| == |Paths(spec).value.members| &&
              forall i :: 0 <= i < |r| ==> r[i] == Paths(spec).value.members[i].0
  {
    var paths := Paths(spec);
    if Truthy(paths) then
      var r := Keys(paths.value);
      assert forall p :: p in r <==> Get(paths.value, p).Some? by {
        forall p
          ensures p in r <==> Get(paths.value, p).Some?
        {
          KeysAreReadable(paths.value, p);
        }
      }
      r
    else []
  }

  /** `xs` is `ys` with some elements dropped, order kept. */
  predicate IsSubsequence(xs: seq<string>, ys: seq<string>)
    decreases |ys|
  {
    if |xs| == 0 then true
    else if |ys| == 0 then false
    else if xs[0] == ys[0] then IsSubsequence(xs[1..], ys[1..])
    else IsSubsequence(xs, ys[1..])
  }

  /** The methods of `ms` whose entry on `item` is truthy, in the order of `ms`. */
  function PresentMethods(item: Json, ms: seq<string>): (r: seq<string>)
    ensures IsSubsequence(r, ms)
    ensures forall m :: m in r <==> m in ms && Truthy(Get(item, m))
  {
    if |ms| == 0 then []
    else
      var rest := PresentMethods(item, ms[1..]);
      assert forall m :: m in ms <==> m == ms[0] || m in ms[1..];
      if Truthy(Get(item, ms[0])) then [ms[0]] + rest else rest
  }

  /** `getMethodsForPath(path)`. */
  function GetMethodsForPath(spec: Document, path: string): (r: Result<seq<string>, TypeError>)
    ensures r.Failure? <==> !PathsReadable(spec)
    ensures r.Success? ==> IsSubsequence(r.value, HttpMethods)
    ensures r.Success? ==>
              forall m :: m in r.value <==> m in HttpMethods && Truthy(PathItem(spec, path)) && Truthy(Get(PathItem(spec, path).value, m))
  {
    var item :- Read(Paths(spec), path);
    if !Truthy(item) then Success([]) else Success(PresentMethods(item.value, HttpMethods))
  }

  /** `getOperationId(path, method)`; `None` is `null` or `undefined`. */
  function GetOperationId(spec: Document, path: string, httpMethod: string): (r: Result<Option<Json>, TypeError>)
    ensures r.Failure? <==> !PathsReadable(spec)
    ensures r.Failure? ==> r.error == CannotRead(Paths(spec).Some?, path)
    ensures r.Success? && !Documented(spec, path, httpMethod) ==> r.value.None?
    ensures r.Success? && Documented(spec, path, httpMethod) ==>
              r.value == Get(Operation(spec, path, httpMethod).value, "operationId")
  {
    var op :- GetOperation(spec, path, httpMethod);
    if Truthy(op) then Success(Get(op.value, "operationId")) else Success(None)
  }

  /** The integer codes of response keys: `parseInt(k, 10)` of every key but
      `"default"`, NaN results dropped. */
  function StatusCodes(keys: seq<string>): (r: seq<int>)
    ensures forall c :: c in r <==>
              exists i :: 0 <= i < |keys| && keys[i] != "default" && ParseInt(keys[i]) == Some(c)
  {
    if |keys| == 0 then []
    else
      var rest := StatusCodes(keys[1..]);
      assert forall i :: 0 < i < |keys| ==> keys[i] == keys[1..][i - 1];
      if keys[0] != "default" && ParseInt(keys[0]).Some? then [ParseInt(keys[0]).value] + rest else rest
  }

  /** The `responses` object of an operation value. */
  function Responses(op: Json): Option<Json> {
    Get(op, "responses")
  }

  /** `getExpectedStatusCodes(path, method)`. */
  function GetExpectedStatusCodes(spec: Document, path: string, httpMethod: string): (r: Result<seq<int>, TypeError>)
    ensures r.Failure? <==> !PathsReadable(spec)
    ensures r.Success? && !Documented(spec, path, httpMethod) ==> r.value == []
    ensures r.Success? && Documented(spec, path, httpMethod) && !Truthy(Responses(Operation(spec, path, httpMethod).value)) ==> r.value == []
    ensures r.Success? && Documented(spec, path, httpMethod) && Truthy(Responses(Operation(spec, path, httpMethod).value)) ==>
              var keys := Keys(Responses(Operation(spec, path, httpMethod).value).value);
              forall c :: c in r.value <==> exists i :: 0 <= i < |keys| && keys[i] != "default" && ParseInt(keys[i]) == Some(c)
  {
    var op :- GetOperation(spec, path, httpMethod);
    if !Truthy(op) then Success([])
    else
      var responses := Responses(op.value);
      if !Truthy(responses) then Success([]) else Success(StatusCodes(Keys(responses.value)))
  }

  /** The schema under `content['application/json'].schema` of a response or
      request-body value, `None` when `content` or the JSON media type is falsy. */
  function JsonContentSchema(entry: Json): Option<Json> {
    var content := Get(entry, "content");
    if !Truthy(content) then None
    else
      var media := Get(content.value, "application/json");
      if !Truthy(media) then None else Get(media.value, "schema")
  }

  /** `responses[key]` of an operation value, `None` when `responses` is falsy. */
  function ResponseEntry(op: Json, key: string): Option<Json> {
    var responses := Responses(op);
    if Truthy(responses) then Get(responses.value, key) else None
  }

  /** `getResponseSchema(operation, statusCode)`: the exact status key is used
      whenever its entry is truthy, even if it has no JSON content; `default`
      only when it is not; otherwise nothing. */
  function GetResponseSchema(op: Json, statusCode: int): (r: Option<Json>)
    requires !op.Null?
    ensures Truthy(ResponseEntry(op, IntToString(statusCode))) ==>
              r == JsonContentSchema(ResponseEntry(op, IntToString(statusCode)).value)
    ensures !Truthy(ResponseEntry(op, IntToString(statusCode))) && Truthy(ResponseEntry(op, "default")) ==>
              r == JsonContentSchema(ResponseEntry(op, "default").value)
    ensures !Truthy(ResponseEntry(op, IntToString(statusCode))) && !Truthy(ResponseEntry(op, "default")) ==>
              r.None?
  {
    var responses := Responses(op);
    if !Truthy(responses) then None
    else
      var exact := Get(responses.value, IntToString(statusCode));
      var response := if Truthy(exact) then exact else Get(responses.value, "default");
      if !Truthy(response) then None else JsonContentSchema(response.value)
  }

  /** `getRequestSchema(path, method)`. */
  function GetRequestSchema(spec: Document, path: string, httpMethod: string): (r: Result<Option<Json>, TypeError>)
    ensures r.Failure? <==> !PathsReadable(spec)
    ensures r.Success? && !Documented(spec, path, httpMethod) ==> r.value.None?
    ensures r.Success? && Documented(spec, path, httpMethod) ==>
              var body := Get(Operation(spec, path, httpMethod).value, "requestBody");
              r.value == if Truthy(body) then JsonContentSchema(body.value) else None
  {
    var op :- GetOperation(spec, path, httpMethod);
    if !Truthy(op) then Success(None)
    else
      var body := Get(op.value, "requestBody");
      if !Truthy(body) then Success(None) else Success(JsonContentSchema(body.value))
  }

  // ---- verdicts ----

  /** A validation result: either nothing to check, with a note, or the
      engine's verdict on a resolved schema. */
  datatype Verdict =
    | NoSchema(message: string)
    | Checked(valid: bool, errors: seq<SchemaError>, schema: Json)
  {
    function Valid(): bool {
      NoSchema? || valid
    }

    function Errors(): seq<SchemaError> {
      if Checked? then errors else []
    }
  }

  /** What the validator throws. */
  datatype ValidatorError =
    | PathsUnreadable(cause: TypeError)
    | OperationNotFound(httpMethod: string, path: string)
    | CompileFailed(reason: string)
  {
    function Message(): string {
      match this
      case PathsUnreadable(cause) => cause.Message()
      case OperationNotFound(httpMethod, path) => "Operation not found for " + ToUpperCase(httpMethod) + " " + path
      case CompileFailed(reason) => reason
    }
  }

  /** Compile `schema`, run it on `data` and report `{valid, errors, schema}`,
      with `errors` the engine's list or `[]` when it gives none. */
  function RunSchema(v: Validator, schema: Json, data: Json): (r: Result<Verdict, ValidatorError>)
    ensures r.Failure? <==> v.engine.run(v.registry, schema, data).CompileError?
    ensures r.Success? ==> r.value.Checked? && r.value.schema == schema
    ensures r.Success? ==> (r.value.valid <==> v.engine.run(v.registry, schema, data).Passed?)
    ensures r.Success? && r.value.valid ==> r.value.errors == []
    ensures r.Success? && v.engine.run(v.registry, schema, data).Failed? ==>
              r.value.errors == v.engine.run(v.registry, schema, data).errors.GetOr([])
    ensures r.Failure? ==> r.error == CompileFailed(v.engine.run(v.registry, schema, data).reason)
  {
    match v.engine.run(v.registry, schema, data)
    case CompileError(reason) => Failure(CompileFailed(reason))
    case Passed => Success(Checked(true, [], schema))
    case Failed(errors) => Success(Checked(false, errors.GetOr([]), schema))
  }

  /** The response schema of a documented operation. */
  function ResponseSchemaOf(spec: Document, path: string, httpMethod: string, statusCode: int): Option<Json>
    requires Documented(spec, path, httpMethod)
  {
    GetResponseSchema(Operation(spec, path, httpMethod).value, statusCode)
  }

  /** The request schema of an operation, `None` when reading it throws. */
  function RequestSchemaOf(spec: Document, path: string, httpMethod: string): Option<Json> {
    var r := GetRequestSchema(spec, path, httpMethod);
    if r.Success? then r.value else None
  }

  /** `validateResponse(path, method, statusCode, responseData)`. */
  function ValidateResponse(v: Validator, path: string, httpMethod: string, statusCode: int, data: Json): (r: Result<Verdict, ValidatorError>)
    ensures r.Failure? && r.error.PathsUnreadable? <==> !PathsReadable(v.spec)
    ensures r.Failure? && r.error.OperationNotFound? <==> PathsReadable(v.spec) && !Documented(v.spec, path, httpMethod)
    ensures r.Failure? && r.error.OperationNotFound? ==> r.error == OperationNotFound(httpMethod, path)
    ensures r.Success? ==> Documented(v.spec, path, httpMethod)
    ensures r.Success? && r.value.NoSchema? <==>
              PathsReadable(v.spec) && Documented(v.spec, path, httpMethod) &&
              !Truthy(ResponseSchemaOf(v.spec, path, httpMethod, statusCode))
    ensures r.Success? && r.value.NoSchema? ==>
              r.value.message == "No schema defined for " + IntToString(statusCode) + " response"
    ensures r.Success? && r.value.Checked? ==>
              ResponseSchemaOf(v.spec, path, httpMethod, statusCode) == Some(r.value.schema) &&
              (r.value.valid <==> v.engine.run(v.registry, r.value.schema, data).Passed?)
    ensures r.Failure? && r.error.CompileFailed? ==>
              Truthy(ResponseSchemaOf(v.spec, path, httpMethod, statusCode)) &&
              v.engine.run(v.registry, ResponseSchemaOf(v.spec, path, httpMethod, statusCode).value, data).CompileError?
    ensures r.Success? && r.value.Valid() ==> r.value.Errors() == []
    ensures r.Success? && r.value.Checked? ==> Success(r.value) == RunSchema(v, r.value.schema, data)
    ensures r.Failure? && r.error.PathsUnreadable? ==> r.error.cause == CannotRead(Paths(v.spec).Some?, path)
    ensures r.Failure? && r.error.CompileFailed? ==> r == RunSchema(v, ResponseSchemaOf(v.spec, path, httpMethod, statusCode).value, data)
  {
    match GetOperation(v.spec, path, httpMethod)
    case Failure(e) => Failure(PathsUnreadable(e))
    case Success(op) =>
      if !Truthy(op) then Failure(OperationNotFound(httpMethod, path))
      else
        var schema := GetResponseSchema(op.value, statusCode);
        if !Truthy(schema) then Success(NoSchema("No schema defined for " + IntToString(statusCode) + " response"))
        else RunSchema(v, schema.value, data)
  }

  /** `validateRequest(path, method, requestData)`. */
  function ValidateRequest(v: Validator, path: string, httpMethod: string, data: Json): (r: Result<Verdict, ValidatorError>)
    ensures !(r.Failure? && r.error.OperationNotFound?)
    ensures r.Failure? && r.error.PathsUnreadable? <==> !PathsReadable(v.spec)
    ensures r.Success? && r.value.NoSchema? <==> PathsReadable(v.spec) && !Truthy(RequestSchemaOf(v.spec, path, httpMethod))
    ensures r.Success? && r.value.NoSchema? ==> r.value.message == "No request schema defined"
    ensures r.Success? && r.value.Checked? ==>
              RequestSchemaOf(v.spec, path, httpMethod) == Some(r.value.schema) &&
              (r.value.valid <==> v.engine.run(v.registry, r.value.schema, data).Passed?)
    ensures r.Failure? && r.error.CompileFailed? ==>
              Truthy(RequestSchemaOf(v.spec, path, httpMethod)) &&
              v.engine.run(v.registry, RequestSchemaOf(v.spec, path, httpMethod).value, data).CompileError?
    ensures r.Success? && r.value.Valid() ==> r.value.Errors() == []
    ensures r.Success? && r.value.Checked? ==> Success(r.value) == RunSchema(v, r.value.schema, data)
    ensures r.Failure? && r.error.PathsUnreadable? ==> r.error.cause == CannotRead(Paths(v.spec).Some?, path)
    ensures r.Failure? && r.error.CompileFailed? ==> r == RunSchema(v, RequestSchemaOf(v.spec, path, httpMethod).value, data)
  {
    match GetRequestSchema(v.spec, path, httpMethod)
    case Failure(e) => Failure(PathsUnreadable(e))
    case Success(schema) =>
      if !Truthy(schema) then Success(NoSchema("No request schema defined"))
      else RunSchema(v, schema.value, data)
  }
}

=== FILE: test_setup.dfy ===
/** The assertion helpers the API tests call: they turn a validator verdict
    into a returned verdict or a thrown message with one diagnostic line per
    schema error, and the custom matcher turns any throw into a failed match. */
module TestSetup {
  import opened Wrappers
  import opened Json
  import opened JsText
  import opened SchemaEngine
  import opened SchemaValidator

  /** The shared test state: the validator, once the suite has built it. */
  datatype Harness = Harness(validator: Option<Validator>)

  const NotInitialized := "Schema validator not initialized"

  /** The diagnostic line for one schema error; an empty instance path is the root. */
  function ErrorLine(e: SchemaError): string {
    "  - " + (if e.instancePath == "" then "root" else e.instancePath) + ": " + e.message
  }

  function ErrorLines(errors: seq<SchemaError>): seq<string> {
    seq(|errors|, i requires 0 <= i < |errors| => ErrorLine(errors[i]))
  }

  function ResponseFailureHeader(path: string, httpMethod: string, statusCode: int): string {
    "Response validation failed for " + ToUpperCase(httpMethod) + " " + path + " (" + IntToString(statusCode) + "):"
  }

  function RequestFailureHeader(path: string, httpMethod: string): string {
    "Request validation failed for " + ToUpperCase(httpMethod) + " " + path + ":"
  }

  /** `global.validateResponse(path, method, statusCode, responseData)`: the
      verdict unchanged when it is valid; otherwise a thrown message, the
      header then one line per error, in order. */
  function ValidateResponse(h: Harness, path: string, httpMethod: string, statusCode: int, data: Json): (r: Result<Verdict, string>)
    ensures h.validator.None? ==> r == Failure(NotInitialized)
    ensures h.validator.Some? ==>
              var inner := SchemaValidator.ValidateResponse(h.validator.value, path, httpMethod, statusCode, data);
              && (inner.Failure? ==> r == Failure(inner.error.Message()))
              && (inner.Success? && inner.value.Valid() ==> r == Success(inner.value))
              && (inner.Success? && !inner.value.Valid() ==>
                    r == Failure(ResponseFailureHeader(path, httpMethod, statusCode) + "\n"
                                 + Join(ErrorLines(inner.value.errors), "\n")))
  {
    if h.validator.None? then Failure(NotInitialized)
    else
      match SchemaValidator.ValidateResponse(h.validator.value, path, httpMethod, statusCode, data)
      case Failure(e) => Failure(e.Message())
      case Success(verdict) =>
        if !verdict.Valid()
        then Failure(ResponseFailureHeader(path, httpMethod, statusCode) + "\n" + Join(ErrorLines(verdict.Errors()), "\n"))
        else Success(verdict)
  }

  /** `global.validateRequest(path, method, requestData)`: as for responses,
      with a header that has no status code. */
  function ValidateRequest(h: Harness, path: string, httpMethod: string, data: Json): (r: Result<Verdict, string>)
    ensures h.validator.None? ==> r == Failure(NotInitialized)
    ensures h.validator.Some? ==>
              var inner := SchemaValidator.ValidateRequest(h.validator.value, path, httpMethod, data);
              && (inner.Failure? ==> r == Failure(inner.error.Message()))
              && (inner.Success? && inner.value.Valid() ==> r == Success(inner.value))
              && (inner.Success? && !inner.value.Valid() ==>
                    r == Failure(RequestFailureHeader(path, httpMethod) + "\n"
                                 + Join(ErrorLines(inner.value.errors), "\n")))
  {
    if h.validator.None? then Failure(NotInitialized)
    else
      match SchemaValidator.ValidateRequest(h.validator.value, path, httpMethod, data)
      case Failure(e) => Failure(e.Message())
      case Success(verdict) =>
        if !verdict.Valid()
        then Failure(RequestFailureHeader(path, httpMethod) + "\n" + Join(ErrorLines(verdict.Errors()), "\n"))
        else Success(verdict)
  }

  /** `global.getExpectedStatusCodes(path, method)`: the validator's answer,
      its TypeError passed on as a thrown message. */
  function GetExpectedStatusCodes(h: Harness, path: string, httpMethod: string): (r: Result<seq<int>, string>)
    ensures h.validator.None? ==> r == Failure(NotInitialized)
    ensures h.validator.Some? ==>
              var inner := SchemaValidator.GetExpectedStatusCodes(h.validator.value.spec, path, httpMethod);
              && (inner.Success? ==> r == Success(inner.value))
              && (inner.Failure? ==> r == Failure(inner.error.Message()))
  {
    if h.validator.None? then Failure(NotInitialized)
    else
      match SchemaValidator.GetExpectedStatusCodes(h.validator.value.spec, path, httpMethod)
      case Success(codes) => Success(codes)
      case Failure(e) => Failure(e.Message())
  }

  /** `global.getOperationId(path, method)`. */
  function GetOperationId(h: Harness, path: string, httpMethod: string): (r: Result<Option<Json>, string>)
    ensures h.validator.None? ==> r == Failure(NotInitialized)
    ensures h.validator.Some? ==>
              var inner := SchemaValidator.GetOperationId(h.validator.value.spec, path, httpMethod);
              && (inner.Success? ==> r == Success(inner.value))
              && (inner.Failure? ==> r == Failure(inner.error.Message()))
  {
    if h.validator.None? then Failure(NotInitialized)
    else
      match SchemaValidator.GetOperationId(h.validator.value.spec, path, httpMethod)
      case Success(id) => Success(id)
      case Failure(e) => Failure(e.Message())
  }

  /** What a custom matcher returns. */
  datatype MatchResult = MatchResult(pass: bool, message: string)

  /** `expect(received).toMatchOpenAPISchema(path, method, statusCode)`. */
  function ToMatchOpenAPISchema(h: Harness, received: Json, path: string, httpMethod: string, statusCode: int): (r: MatchResult)
    ensures r.pass <==> ValidateResponse(h, path, httpMethod, statusCode, received).Success?
    ensures r.pass ==> r.message == "Expected response not to match OpenAPI schema"
    ensures !r.pass ==>
              r.message == "Expected response to match OpenAPI schema: "
                           + ValidateResponse(h, path, httpMethod, statusCode, received).error
  {
    match ValidateResponse(h, path, httpMethod, statusCode, received)
    case Success(_) => MatchResult(true, "Expected response not to match OpenAPI schema")
    case Failure(message) => MatchResult(false, "Expected response to match OpenAPI schema: " + message)
  }

  // ---- properties of the helpers ----

  /** A passing response helper returns a valid verdict with no errors. */
  lemma PassingResponseHelperIsValid(h: Harness, path: string, httpMethod: string, statusCode: int, data: Json)
    ensures var r := ValidateResponse(h, path, httpMethod, statusCode, data);
            r.Success? ==> r.value.Valid() && r.value.Errors() == []
  {
  }

  predicate NoNewline(s: string) {
    '\n' !in s
  }

  lemma HeaderHasNoNewline(path: string, httpMethod: string, statusCode: int)
    requires NoNewline(path) && NoNewline(httpMethod)
    ensures NoNewline(ResponseFailureHeader(path, httpMethod, statusCode))
  {
    var m: nat := if statusCode < 0 then -statusCode else statusCode;
    assert NoNewline(NatToString(m)) by {
      assert forall i :: 0 <= i < |NatToString(m)| ==> IsDigit(NatToString(m)[i]);
    }
    assert NoNewline(IntToString(statusCode));
    assert NoNewline(ToUpperCase(httpMethod)) by {
      forall i | 0 <= i < |httpMethod|
        ensures ToUpperCase(httpMethod)[i] != '\n'
      {
        assert httpMethod[i] != '\n';
      }
    }
  }

  lemma ErrorLinesHaveNoNewline(errors: seq<SchemaError>)
    requires forall i :: 0 <= i < |errors| ==> NoNewline(errors[i].instancePath) && NoNewline(errors[i].message)
    ensures forall i :: 0 <= i < |errors| ==> NoNewline(ErrorLines(errors)[i])
  {
    forall i | 0 <= i < |errors|
      ensures NoNewline(ErrorLines(errors)[i])
    {
      assert ErrorLines(errors)[i] == ErrorLine(errors[i]);
    }
  }

  /** The failure message of the response helper splits into its header and
      exactly one line per schema error, in the engine's order, when no path
      or message contains a line break. */
  lemma ResponseFailureLines(path: string, httpMethod: string, statusCode: int, errors: seq<SchemaError>)
    requires |errors| > 0
    requires NoNewline(path) && NoNewline(httpMethod)
    requires forall i :: 0 <= i < |errors| ==> NoNewline(errors[i].instancePath) && NoNewline(errors[i].message)
    ensures Split(ResponseFailureHeader(path, httpMethod, statusCode) + "\n" + Join(ErrorLines(errors), "\n"), '\n')
            == [ResponseFailureHeader(path, httpMethod, statusCode)] + ErrorLines(errors)
  {
    var header := ResponseFailureHeader(path, httpMethod, statusCode);
    var lines := ErrorLines(errors);
    var all := [header] + lines;
    HeaderHasNoNewline(path, httpMethod, statusCode);
    ErrorLinesHaveNoNewline(errors);
    assert forall k :: 0 <= k < |all| ==> NoNewline(all[k]) by {
      forall k | 0 <= k < |all|
        ensures NoNewline(all[k])
      {
        if k > 0 {
          assert all[k] == lines[k - 1];
        }
      }
    }
    assert all[1..] == lines;
    assert Join(all, "\n") == header + "\n" + Join(lines, "\n");
    SplitInvertsJoin(all, '\n');
  }

  /** The matcher fails exactly when the helper throws, including for an
      operation the document does not declare. */
  lemma MatcherFailsOnUndocumented(h: Harness, received: Json, path: string, httpMethod: string, statusCode: int)
    requires h.validator.Some? && PathsReadable(h.validator.value.spec)
    requires !Documented(h.validator.value.spec, path, httpMethod)
    ensures ToMatchOpenAPISchema(h, received, path, httpMethod, statusCode)
            == MatchResult(false, "Expected response to match OpenAPI schema: "
                                  + OperationNotFound(httpMethod, path).Message())
  {
    var inner := SchemaValidator.ValidateResponse(h.validator.value, path, httpMethod, statusCode, received);
    assert inner == Failure(OperationNotFound(httpMethod, path));
    assert ValidateResponse(h, path, httpMethod, statusCode, received) == Failure(OperationNotFound(httpMethod, path).Message());
  }

  /** Every helper throws before anything else when no validator is set. */
  lemma HelpersRequireValidator(path: string, httpMethod: string, statusCode: int, data: Json)
    ensures ValidateResponse(Harness(None), path, httpMethod, statusCode, data) == Failure(NotInitialized)
    ensures ValidateRequest(Harness(None), path, httpMethod, data) == Failure(NotInitialized)
    ensures GetExpectedStatusCodes(Harness(None), path, httpMethod) == Failure(NotInitialized)
    ensures GetOperationId(Harness(None), path, httpMethod) == Failure(NotInitialized)
    ensures !ToMatchOpenAPISchema(Harness(None), data, path, httpMethod, statusCode).pass
  {
  }
}

=== FILE: validator_lemmas.dfy ===
/** Properties relating the contract index queries to one another and to the
    verdicts built from them. */
module ValidatorLemmas {
  import opened Wrappers
  import opened Json
  import opened JsText
  import opened SchemaEngine
  import opened SchemaValidator

  /** Method lookup ignores case: `GET`, `Get` and `get` find the same operation. */
  lemma MethodCaseInsensitive(spec: Document, path: string, httpMethod: string)
    ensures GetOperation(spec, path, httpMethod) == GetOperation(spec, path, ToLowerCase(httpMethod))
    ensures GetOperation(spec, path, httpMethod) == GetOperation(spec, path, ToUpperCase(httpMethod))
  {
    LowerIdempotent(httpMethod);
  }

  /** For a method of the vocabulary (in any case), `getMethodsForPath` lists it
      exactly when `getOperation` finds a documented operation for it. */
  lemma MethodsAgreeWithOperations(spec: Document, path: string, httpMethod: string)
    requires PathsReadable(spec)
    requires ToLowerCase(httpMethod) in HttpMethods
    ensures ToLowerCase(httpMethod) in GetMethodsForPath(spec, path).value <==> Documented(spec, path, httpMethod)
  {
  }

  /** A documented operation sits under a path that `getAllPaths` lists: path
      lookup is by exact key, with no template matching. */
  lemma {:induction false} DocumentedPathIsListed(spec: Document, path: string, httpMethod: string)
    requires Documented(spec, path, httpMethod)
    ensures path in GetAllPaths(spec)
  {
    assert Truthy(PathItem(spec, path));
    assert Truthy(Paths(spec));
  }

  /** A path that `getAllPaths` does not list has no operation, no methods,
      no status codes, no operation id and no request schema. */
  lemma UnlistedPathIsUndocumented(spec: Document, path: string, httpMethod: string)
    requires PathsReadable(spec)
    requires path !in GetAllPaths(spec)
    ensures GetOperation(spec, path, httpMethod) == Success(None)
    ensures GetMethodsForPath(spec, path) == Success([])
    ensures GetExpectedStatusCodes(spec, path, httpMethod) == Success([])
    ensures GetOperationId(spec, path, httpMethod) == Success(None)
    ensures GetRequestSchema(spec, path, httpMethod) == Success(None)
  {
    assert !Truthy(PathItem(spec, path));
  }

  /** A status code whose exact key `getResponseSchema` would use is among the
      codes `getExpectedStatusCodes` reports for the operation. */
  lemma ExactResponseIsExpectedStatus(spec: Document, path: string, httpMethod: string, statusCode: int)
    requires Documented(spec, path, httpMethod)
    requires ResponseEntry(Operation(spec, path, httpMethod).value, IntToString(statusCode)).Some?
    ensures statusCode in GetExpectedStatusCodes(spec, path, httpMethod).value
  {
    var op := Operation(spec, path, httpMethod).value;
    var responses := Responses(op).value;
    var key := IntToString(statusCode);
    KeysAreReadable(responses, key);
    ParseIntInvertsIntToString(statusCode);
    assert key != "default" by {
      assert key[0] == '-' || IsDigit(key[0]);
    }
    var keys := Keys(responses);
    var i :| 0 <= i < |keys| && keys[i] == key;
  }

  /** Status precedence, first half: when the exact status entry exists and
      declares a JSON schema, that schema is the one the payload is checked
      against, whatever `default` declares. */
  lemma ExactSchemaShadowsDefault(v: Validator, path: string, httpMethod: string, statusCode: int, data: Json)
    requires Documented(v.spec, path, httpMethod)
    requires Truthy(ResponseEntry(Operation(v.spec, path, httpMethod).value, IntToString(statusCode)))
    requires Truthy(JsonContentSchema(ResponseEntry(Operation(v.spec, path, httpMethod).value, IntToString(statusCode)).value))
    requires !v.engine.run(v.registry, JsonContentSchema(ResponseEntry(Operation(v.spec, path, httpMethod).value, IntToString(statusCode)).value).value, data).CompileError?
    ensures var r := ValidateResponse(v, path, httpMethod, statusCode, data);
            r.Success? && r.value.Checked? &&
            Some(r.value.schema) == JsonContentSchema(ResponseEntry(Operation(v.spec, path, httpMethod).value, IntToString(statusCode)).value)
  {
  }

  /** Status precedence, second half: an exact status entry without JSON content
      does not fall back to `default`; there is nothing to check. */
  lemma ExactEntryWithoutJsonContentIsNotChecked(v: Validator, path: string, httpMethod: string, statusCode: int, data: Json)
    requires Documented(v.spec, path, httpMethod)
    requires Truthy(ResponseEntry(Operation(v.spec, path, httpMethod).value, IntToString(statusCode)))
    requires !Truthy(JsonContentSchema(ResponseEntry(Operation(v.spec, path, httpMethod).value, IntToString(statusCode)).value))
    ensures ValidateResponse(v, path, httpMethod, statusCode, data)
            == Success(NoSchema("No schema defined for " + IntToString(statusCode) + " response"))
  {
  }

  /** A status the operation does not declare, with no `default` response, has
      nothing to check: the verdict is valid whatever the body. */
  lemma UndeclaredStatusIsNotChecked(v: Validator, path: string, httpMethod: string, statusCode: int, data: Json)
    requires Documented(v.spec, path, httpMethod)
    requires !Truthy(ResponseEntry(Operation(v.spec, path, httpMethod).value, IntToString(statusCode)))
    requires !Truthy(ResponseEntry(Operation(v.spec, path, httpMethod).value, "default"))
    ensures ValidateResponse(v, path, httpMethod, statusCode, data)
            == Success(NoSchema("No schema defined for " + IntToString(statusCode) + " response"))
  {
  }

  /** Only response validation raises on an undocumented operation; request
      validation and the other queries degrade to "nothing documented". */
  lemma OnlyResponseValidationRaisesOnUndocumented(v: Validator, path: string, httpMethod: string,
                                                   statusCode: int, responseData: Json, requestData: Json)
    requires PathsReadable(v.spec)
    requires !Documented(v.spec, path, httpMethod)
    ensures ValidateResponse(v, path, httpMethod, statusCode, responseData) == Failure(OperationNotFound(httpMethod, path))
    ensures ValidateRequest(v, path, httpMethod, requestData) == Success(NoSchema("No request schema defined"))
    ensures GetExpectedStatusCodes(v.spec, path, httpMethod) == Success([])
    ensures GetOperationId(v.spec, path, httpMethod) == Success(None)
  {
  }

  /** Without a readable `paths`, every query that indexes it throws the same
      TypeError, while `getAllPaths` answers with no paths. */
  lemma MissingPathsThrows(spec: Document, path: string, httpMethod: string)
    requires !PathsReadable(spec)
    ensures GetAllPaths(spec) == []
    ensures GetOperation(spec, path, httpMethod) == Failure(CannotRead(Paths(spec).Some?, path))
    ensures GetMethodsForPath(spec, path) == Failure(CannotRead(Paths(spec).Some?, path))
    ensures GetExpectedStatusCodes(spec, path, httpMethod) == Failure(CannotRead(Paths(spec).Some?, path))
    ensures GetRequestSchema(spec, path, httpMethod) == Failure(CannotRead(Paths(spec).Some?, path))
    ensures GetOperationId(spec, path, httpMethod) == Failure(CannotRead(Paths(spec).Some?, path))
  {
  }
}

=== FILE: wrappers.dfy ===
/** Option and Result, the two failure-carrying shapes the model uses.
    `None` stands for JavaScript's `undefined`; `Failure` for a thrown error. */
module Wrappers {

  datatype Option<+T> = None | Some(value: T) {

    function GetOr(default: T): T {
      match this
      case Some(v) => v
      case None => default
    }
  }

  datatype Result<+T, +E> = Success(value: T) | Failure(error: E) {

    predicate IsFailure() {
      Failure?
    }

    function PropagateFailure<U>(): Result<U, E>
      requires Failure?
    {
      Failure(error)
    }

    function Extract(): T
      requires Success?
    {
      value
    }
  }
}
